=== FILE: README.md ===
# SatisficingMeals core, modelled in Dafny

SatisficingMeals is a pantry and recipe web app. The user keeps a pantry of
ingredients with expiry dates, gets recipes ranked by how much of each recipe
the pantry covers, and keeps shopping lists whose checked items can be moved
into the pantry. This project models the logic under the Express/Mongo and DOM
plumbing, and proves properties of it:

- the recipe suggestions: scoring and ranking;
- the pantry routes: add, update, delete, the 7-day expiring query, and the
  ingredient catalogue;
- the shopping-list routes: create, update, delete, toggle, and move to pantry;
- the page logic of the pantry, recipe, shopping and dashboard pages.

Conventions of the model:

- **Database.** A database is the value `Store.Db`, holding the pantry,
  purchase history, ingredient catalogue and shopping lists as sequences.
  A route reads a `Db` and returns a status with the new `Db`. A `find`
  returns documents in store order, and `findOne`/`updateOne` act on the
  first match.
- **Request values.** Request bodies and stored fields that the code tests
  for truthiness are `Js.Value`: undefined, null, a string, a number, NaN,
  or an object (JSON booleans are not represented; see "Left out").
- **Dates.** An expiration date is `Dates.Expiry`: absent, unparsable
  (Invalid Date), or a parsed instant in milliseconds. Every comparison with
  an Invalid Date is false, as in JavaScript.
- **Clocks.** The clock is a `now` parameter, and the hour of the day for the
  greeting is a parameter too.
- **Inputs.** Browser state (the fetched lists, the prompt's answer, the
  form fields) is passed in as parameters.

Modules:

| module | covers |
|---|---|
| `Js` | JavaScript truthiness, `\|\|`, `toLowerCase`, `Number()` |
| `Text` | trim, `indexOf`, `capitalize`, `split(" ")[0]`, splitting on runs of newlines |
| `Dates` | expiry values and `Math.ceil` of a day count |
| `Seqs` | filter, find, remove-at-index, stable sort |
| `Store` | documents and the database |
| `PantryRoutes` | backend/routes/pantry.js |
| `Suggestions` | backend/routes/recipes.js, the `/suggestions` handler |
| `Ownership` | which pantry documents the suggestions read |
| `ShoppingRoutes` | backend/routes/shopping.js |
| `ShoppingView` | frontend/js/shopping.js |
| `PantryView` | frontend/js/pantry.js |
| `RecipeView` | frontend/js/recipes.js |
| `AppShell` | frontend/js/app.js |

## Model

| member | source | states |
|---|---|---|
| `Js.Lower` | backend/routes/pantry.js:46 | `toLowerCase` keeps the length and lower-cases each character on its own |
| `Js.LowerNormalises` | backend/routes/pantry.js:46 | a lower-cased name is in lower case, lower-casing it again changes nothing, and a name already in lower case is its own lower case |
| `Js.LowerValue` | backend/routes/pantry.js:76 | `ingredient.toLowerCase()` yields a value exactly when the field is a string, and then its lower case; any other value throws |
| `Js.DecimalText` | frontend/js/pantry.js:317-319 | `String(n)` of a natural number is a non-empty digit string, one character long exactly below 10 |
| `Js.DecimalRoundTrip` | backend/routes/pantry.js:47 | reading back the decimal text of a natural number gives the number |
| `Js.DecimalNoLeadingZero` | frontend/js/pantry.js:317-318 | the decimal text of a number starts with '0' only for zero itself |
| `Js.ToNumber` | backend/routes/pantry.js:47 | `Number(quantity)` is a number or NaN; it leaves a number unchanged and reads a digit string as its decimal value |
| `Js.NumberOfNumeral` | backend/routes/pantry.js:47 | `Number` of the decimal text of n is n |
| `Text.Trim` | frontend/js/shopping.js:184 | `trim` removes only leading and trailing white space and keeps the middle as a contiguous slice; the result is empty exactly when the input is all white space |
| `Text.IndexOf` | frontend/js/pantry.js:324 | `indexOf` finds an occurrence with none before it, and finds nothing exactly when the query occurs nowhere |
| `Text.Capitalize` | frontend/js/pantry.js:395-397 | `capitalize`, an upper-cased first character before the rest; its contract is stated by `Text.CapitalizeOnlyFirst` |
| `Text.CapitalizeOnlyFirst` | frontend/js/pantry.js:395-397 | `capitalize` keeps the length, changes only the first character, leaves it not a lower-case letter, keeps the lower-case form, and applying it twice equals applying it once |
| `Text.FirstWord` | frontend/js/app.js:73 | `split(" ")[0]` is the prefix before the first space, and it contains no space |
| `Text.SplitSteps` | frontend/js/recipes.js:269 | splitting on runs of newlines and dropping empty pieces gives non-empty pieces without newlines whose concatenation is the text minus its newlines; a non-empty text without a newline is one piece |
| `Text.SplitAtNewline` | frontend/js/recipes.js:269 | every newline is a cut: the pieces of `a + "\n" + b` are those of `a` followed by those of `b` |
| `Text.SplitBlankLines` | frontend/js/recipes.js:269 | blank lines and a trailing newline add no piece: `a\n\nb` gives `[a, b]` and `a\n` gives `[a]` |
| `Text.SplitJoinRoundTrip` | frontend/js/recipes.js:269 | splitting the newline-join of well-formed steps gives the steps back |
| `Dates.NoDateNeverCompares` | backend/routes/pantry.js:133-137 | an absent or unparsable date satisfies none of the comparisons, so it is never inside a window |
| `Dates.CeilDiv` | frontend/js/app.js:91 | `Math.ceil(a / b)` is the least r with a <= r * b |
| `Dates.DaysLeft` | frontend/js/app.js:91 | the days left is the least whole number of days that reaches the expiry |
| `Dates.DaysLeftMonotone` | frontend/js/app.js:91 | a later expiry never shows fewer days left |
| `Seqs.Filter` | backend/routes/shopping.js:140 | `filter` keeps exactly the elements satisfying the predicate, and nothing else |
| `Seqs.FilterPartition` | backend/routes/shopping.js:140-168 | filtering by a predicate and by its negation splits the sequence: the lengths add up and the multisets add up to the original |
| `Seqs.FilterAppend` | backend/routes/recipes.js:61-66 | filtering distributes over concatenation |
| `Seqs.FilterAll` | backend/routes/shopping.js:168 | a filter returns its input exactly when every element passes |
| `Seqs.FilterNone` | backend/routes/shopping.js:142 | a filter returns nothing exactly when no element passes |
| `Seqs.FirstWhere` | frontend/js/shopping.js:193 | `find` gives the first index whose element passes, or none exactly when no element passes |
| `Seqs.RemoveAt` | frontend/js/shopping.js:265 | dropping index i keeps every other element in order and shortens the sequence by one; an index out of range changes nothing |
| `Seqs.RemoveAppended` | frontend/js/shopping.js:265 | removing the last element of `xs + [y]` gives `xs` |
| `Seqs.SortBy` | frontend/js/shopping.js:40-42 | sorting by a key is a permutation of its input, ordered by the key |
| `Seqs.InsertSorted` | frontend/js/shopping.js:42 | inserting into a sorted sequence keeps it sorted |
| `Seqs.SortStable` | frontend/js/shopping.js:42 | the sort is stable: the elements with any one key keep their input order |
| `Seqs.SortedTwoKeys` | frontend/js/shopping.js:42 | a sorted sequence with only two key values lists all low-key elements, then all high-key ones |
| `Seqs.SortTwoKeys` | frontend/js/shopping.js:42 | sorting by a two-valued key gives the low-key elements in input order, then the high-key ones in input order |
| `Store.NextId` | backend/routes/pantry.js:53 | the id given to an inserted document, pantry item or shopping list, differs from every id already stored in its collection |
| `Store.CatalogueExpiry` | backend/routes/pantry.js:38-41 | the catalogue date for a name comes from the first entry with that name, and is absent when there is none |
| `Store.CatalogueExpiryOf` | backend/routes/shopping.js:148-158 | a moved item whose ingredient is not a string gets no date |
| `PantryRoutes.AddItem` | backend/routes/pantry.js:25-67 | 400 exactly when ingredient, quantity or unit is falsy; 500 when the ingredient is not a string; otherwise 201, and exactly one pantry document and one history entry are appended with the caller's id, the lower-cased ingredient and `Number(quantity)`; the given date is kept, or else the catalogue date; nothing else changes |
| `PantryRoutes.AddedIngredientIsLowered` | backend/routes/pantry.js:44-60 | after a successful add, the stored ingredient is a string in lower case, so "Tomato" is kept as "tomato" |
| `PantryRoutes.OwnedItem` | backend/routes/pantry.js:81-83 | the match is the first document with both the id and the caller's id, and there is none exactly when no document matches both |
| `PantryRoutes.ApplyPatch` | backend/routes/pantry.js:75-79 | the `$set` of an update applied to one item; its contract is stated by `PantryRoutes.PatchOnlyGivenFields` and `PantryRoutes.PatchIdempotent` |
| `PantryRoutes.PatchOnlyGivenFields` | backend/routes/pantry.js:75-79 | an update sets exactly the fields present in the body: `ingredient` to its lower case, `quantity` to its `Number` value, `unit` and `expiration_date` to the values given; the id, the owner, the date added and every absent field stay as they were |
| `PantryRoutes.PatchIdempotent` | backend/routes/pantry.js:75-84 | applying the same update twice equals applying it once, and an empty body changes nothing |
| `PantryRoutes.UpdateItem` | backend/routes/pantry.js:70-95 | 500 for a malformed id or a non-string ingredient; 404 exactly when no document matches both the id and the caller, and then nothing changes; on 200 only the matched document changes |
| `PantryRoutes.DeleteItem` | backend/routes/pantry.js:98-115 | 500 for a malformed id; 404 exactly when no document matches both the id and the caller, and then nothing changes; on 200 exactly the matched document is removed and the others keep their order |
| `PantryRoutes.AddThenDelete` | backend/routes/pantry.js:98-115 | deleting the document just added, by its id, restores the pantry |
| `PantryRoutes.WithinWeekOf` | backend/routes/pantry.js:124-137 | the query keeps exactly the caller's documents with a parsed date d where now <= d <= now + 7 days |
| `PantryRoutes.Expiring` | backend/routes/pantry.js:118-146 | `/expiring` is a permutation of those documents, sorted by ascending date |
| `PantryRoutes.ExpiringStable` | backend/routes/pantry.js:139 | documents with equal dates keep their store order |
| `PantryRoutes.AddIngredient` | backend/routes/pantry.js:168-193 | 400 exactly when the name is falsy; 500 when it is not a string; 200 with no change when the lower-cased name is already catalogued; otherwise 201 and one entry is appended, holding the lower-cased name and the given date or none; no other status is answered |
| `PantryRoutes.AddIngredientIdempotent` | backend/routes/pantry.js:174-186 | adding a name a second time, in any casing, answers 200 and inserts nothing |
| `Suggestions.PantryNames` | backend/routes/recipes.js:48-50 | the pantry names are the lower-cased ingredients in store order; the handler fails when any stored ingredient is not a string |
| `Suggestions.Have` | backend/routes/recipes.js:61-63 | the ingredients the pantry holds, in recipe order; its contract is stated by `Suggestions.HaveMissingPartition` |
| `Suggestions.MissingOf` | backend/routes/recipes.js:64-66 | the ingredients the pantry lacks, in recipe order; its contract is stated by `Suggestions.HaveMissingPartition` |
| `Suggestions.HaveMissingPartition` | backend/routes/recipes.js:60-66 | `have` and `missing` split the lower-cased ingredients, duplicates included: the multisets and lengths add up, every `have` entry is a pantry name, no `missing` entry is, and each ingredient lands in the list that its membership selects |
| `Suggestions.ScoreOf` | backend/routes/recipes.js:67 | the score is NaN exactly when the recipe has no ingredients; otherwise it lies in [0,1], is 1 exactly when all are held and 0 exactly when none are, and in general `score * total == held`, so the score is the fraction held |
| `Suggestions.AnyExpiringHeld` | backend/routes/recipes.js:69-76 | `usesExpiring` holds exactly when some pantry document has a parsed date at or before now + 3 days and its lower-cased name is in `have`; there is no lower bound |
| `Suggestions.ScoreRecipe` | backend/routes/recipes.js:59-79 | each scored record keeps the recipe; the have/missing split and the `usesExpiring` condition hold for it, and the score is `ScoreOf(|have|, |ingredients|)`, i.e. `|have| / |ingredients|` |
| `Suggestions.ScoreAll` | backend/routes/recipes.js:59 | one scored record per recipe, in recipe order |
| `Suggestions.Rank` | backend/routes/recipes.js:82-86 | ranking is a permutation; recipes using expiring items come first, scores do not increase within each group, and no record is ranked after one the comparator puts behind it |
| `Suggestions.StrictlyBefore` | backend/routes/recipes.js:82-86 | the comparator's negative answer: expiring before non-expiring, then the higher score first; related to the sort key by `Suggestions.RankKeyMatchesComparator` |
| `Suggestions.RankStable` | backend/routes/recipes.js:82-86 | records the comparator ties keep the order of the recipe collection |
| `Suggestions.RankKeyMatchesComparator` | backend/routes/recipes.js:82-86 | the sort key orders two records exactly as the comparator does, and ties exactly where the comparator returns 0 |
| `Suggestions.Suggest` | backend/routes/recipes.js:48-88 | over well-typed recipes, the handler fails exactly when a pantry name is not a string; the ranked answer is given exactly when every recipe has an ingredient; the ranked answer is the stable sort `Suggestions.Rank` of the scored recipes; when a score is NaN only the multiset of records is determined |
| `Suggestions.SuggestStable` | backend/routes/recipes.js:82-86 | in the ranked answer, the recipes the comparator ties keep catalogue order |
| `Suggestions.SuggestKeepsRecipes` | backend/routes/recipes.js:78 | every recipe appears in the answer with all its fields kept |
| `Suggestions.EmptyPantry` | backend/routes/recipes.js:61-76 | with an empty pantry, `have` is empty, `missing` is every ingredient, the score is 0 for a recipe with ingredients, and `usesExpiring` is false |
| `Suggestions.CaseInsensitiveMatch` | backend/routes/recipes.js:48-66 | a pantry "Tomato" satisfies a recipe "tomato": the ingredient lands in `have` |
| `Suggestions.ExpiredStillCounts` | backend/routes/recipes.js:70-76 | an already-expired held item still marks the recipe as using expiring items |
| `Suggestions.ScenarioHalfMatch` | backend/routes/recipes.js:59-79 | a pantry holding tomato scores a tomato-and-basil recipe 0.5, with basil missing |
| `Ownership.SuggestionPantry` | backend/routes/recipes.js:43-46 | the suggestions read exactly the pantry documents stamped with the caller's username |
| `Ownership.SuggestionPantryByUserId` | backend/routes/pantry.js:12-16 | keyed like the pantry routes, the query reads exactly the documents stamped with the caller's id |
| `Ownership.AddedItemNotSuggested` | backend/routes/recipes.js:43-46 | an item just added through the pantry route is never among the documents the suggestions read |
| `Ownership.AddedItemSuggestedByUserId` | backend/routes/pantry.js:44-53 | keyed by the caller's id, the item just added is read |
| `Ownership.SuggestionsRoute` | backend/routes/recipes.js:38-93 | the handler as written scores against the documents stamped with the caller's username: with none, it answers as for an empty pantry; it fails exactly when one of those documents has a non-string ingredient |
| `Ownership.OwnerMismatchCounterexample` | backend/routes/recipes.js:43-46 | after "tomato" is added, the suggestions see an empty pantry and score a tomato recipe 0 with tomato missing |
| `ShoppingRoutes.NormaliseItem` | backend/routes/shopping.js:35-40 | a string item is stored as the ingredient itself; an object's string ingredient is lower-cased; a missing or empty ingredient stores the object; any other ingredient throws; quantity defaults to 1 and unit to "item" when falsy; the item is unchecked |
| `ShoppingRoutes.NormaliseItems` | backend/routes/shopping.js:35-40 | the items keep their count and order, and the request fails exactly when some item throws |
| `ShoppingRoutes.CreateList` | backend/routes/shopping.js:23-50 | 400 exactly when the name is falsy; 500 exactly when an item throws; otherwise 201, and exactly one list is appended, holding the caller's id, the name, the normalised items and the creation time |
| `ShoppingRoutes.OwnedList` | backend/routes/shopping.js:64 | the match is the first list with both the id and the caller's id, and there is none exactly when no list matches both |
| `ShoppingRoutes.UpdateList` | backend/routes/shopping.js:52-77 | 500 for a malformed id; 404 exactly when the list is unknown or another user's, and then nothing changes; on 200 only `name` and `items`, and only those given, change on the matched list |
| `ShoppingRoutes.DeleteList` | backend/routes/shopping.js:79-96 | 500 for a malformed id; 404 exactly when no list matches, and then nothing changes; on 200 exactly the matched list is removed; no other status is answered, so an owned list with a well-formed id is removed |
| `ShoppingRoutes.CreateThenDelete` | backend/routes/shopping.js:79-96 | deleting the list just created, by its id, answers 200 and restores the database |
| `ShoppingRoutes.FlipAt` | backend/routes/shopping.js:113-114 | toggling flips only `items[idx].checked`, and every other item is unchanged |
| `ShoppingRoutes.ToggleItem` | backend/routes/shopping.js:98-128 | 404 for an unknown list; 400 exactly for an index outside [0, length), and the list is unchanged; 500 for a malformed id or a non-numeric index; on 200 only that item's flag flips, and the reply carries the new flag |
| `ShoppingRoutes.ToggleTwiceRestores` | backend/routes/shopping.js:113-123 | toggling the same item twice restores the database |
| `ShoppingRoutes.MovedItems` | backend/routes/shopping.js:147-159 | one pantry document per checked item, in order, copying ingredient, quantity and unit, stamped with the caller's username, the move time and the catalogue date or none |
| `ShoppingRoutes.MovedPurchases` | backend/routes/shopping.js:161-165 | one history entry per checked item, in order, with its ingredient |
| `ShoppingRoutes.MoveToPantry` | backend/routes/shopping.js:130-184 | only 200, 404 and 500 are answered, so an owned list with a well-formed id is moved; `moved` is the number of checked items and `moved` plus the remaining items is the original count; with nothing checked the database is unchanged; otherwise the pantry and history grow by the moved items and the list keeps exactly its unchecked items in order |
| `ShoppingRoutes.MoveLeavesNoChecked` | backend/routes/shopping.js:168-174 | after a move no checked item remains in the list |
| `ShoppingView.Rows` | frontend/js/shopping.js:40-41 | each displayed row carries its item and that item's original index |
| `ShoppingView.Progress` | frontend/js/shopping.js:55 | the progress lies in [0,100]; it is checked/total * 100 when the total is positive and 0 otherwise; it is 100 exactly when every item is checked |
| `ShoppingView.DisplayOrder` | frontend/js/shopping.js:40-42 | the displayed rows are a permutation of the indexed items, ordered unchecked before checked, each row's index pointing back at its item |
| `ShoppingView.ListCard` | frontend/js/shopping.js:37-101 | the checked count plus the unchecked count is the total, so checked <= total; the move button appears exactly when some item is checked |
| `ShoppingView.UncheckedFirst` | frontend/js/shopping.js:40-42 | the display order is exactly the unchecked rows in list order, then the checked rows in list order |
| `ShoppingView.FindList` | frontend/js/shopping.js:193 | the list found is the first with the given id, and there is none exactly when no list has it |
| `ShoppingView.NewItem` | frontend/js/shopping.js:190-198 | the item added from the form has the lower-cased name, the parsed quantity or 1, the chosen unit, and is unchecked |
| `ShoppingView.AddItemFromForm` | frontend/js/shopping.js:183-211 | nothing is sent exactly when the trimmed name is empty or the list is not on the page; otherwise the sent items are the old items, untouched, followed by one new item |
| `ShoppingView.RemoveItem` | frontend/js/shopping.js:262-272 | removing index i sends every other item in order, one fewer when i is valid; nothing is sent when the list is not on the page |
| `ShoppingView.AddThenRemove` | frontend/js/shopping.js:196-199 | removing the item just added sends the original items |
| `ShoppingView.AddedItemStored` | frontend/js/shopping.js:202 | the update route stores the sent items, so the list gains exactly one item after its old ones |
| `ShoppingView.ItemsFor` | frontend/js/shopping.js:303-307 | one item per missing ingredient, in order, each with quantity 1 and unit "item" |
| `ShoppingView.MissingListRequest` | frontend/js/shopping.js:294-313 | nothing is sent exactly when the prompt is cancelled or answered with an empty name; otherwise the request names the list and carries those items |
| `ShoppingView.MissingItemsCreate` | backend/routes/shopping.js:35-40 | a create request built from missing ingredients succeeds and stores one unchecked item per ingredient, in order, with quantity 1, unit "item" and the lower-cased name |
| `PantryView.ShownItems` | frontend/js/pantry.js:28-41 | "all" and unknown filters show the list unchanged; "expiring-soon" shows exactly the dated items with now <= d <= now + 7 days, and "expired" exactly those with d < now; both are the `filter` of the list by `PantryView.SoonItem` or `PantryView.ExpiredItem`, so order and repeats are kept |
| `PantryView.SoonItem` | frontend/js/pantry.js:31-35 | the "expiring-soon" callback: a readable date from now to seven days ahead; related to the card classes by `PantryView.ClassesMatchFilters` |
| `PantryView.ExpiredItem` | frontend/js/pantry.js:37-40 | the "expired" callback: a readable date before now; related to the card classes by `PantryView.ClassesMatchFilters` |
| `PantryView.FiltersDisjoint` | frontend/js/pantry.js:28-41 | no item is shown under both "expiring-soon" and "expired", and undated items are shown under neither |
| `PantryView.Classify` | frontend/js/pantry.js:50-65 | the first matching class wins: expired when d < now, critical up to now + 3 days, soon up to now + 7 days, none otherwise; a missing date shows "No expiry", an unparsable one its raw text, and a dated one the text of its class |
| `PantryView.ClassesMatchFilters` | frontend/js/pantry.js:30-64 | an item passes the "expiring-soon" filter exactly when it is critical or soon, and the "expired" filter exactly when it is classed expired |
| `PantryView.CachedImage` | frontend/js/pantry.js:117-119 | a lookup reads the lower-cased key: a truthy stored value is returned, and null when that key is missing or its value is falsy |
| `PantryView.ReadCache` | frontend/js/pantry.js:101-107 | `getImageCache`: a parsed cache reads as its entries, an absent or unparsable one as empty |
| `PantryView.CacheImage` | frontend/js/pantry.js:121-125 | a store writes the lower-cased key and leaves every other key; an undefined url drops the key, as `JSON.stringify` does |
| `PantryView.CacheCaseInsensitive` | frontend/js/pantry.js:101-125 | a url stored under one casing is read back under any other casing; storing under another name does not disturb it |
| `PantryView.CorruptReadsEmpty` | frontend/js/pantry.js:101-107 | an absent or unparsable stored cache reads as empty |
| `PantryView.LastTwoDigits` | frontend/js/pantry.js:319 | the last two characters of a year's decimal text denote the year modulo 100 |
| `PantryView.TwoWeeksText` | frontend/js/pantry.js:314-321 | the month is written as 1-12 and the day unpadded, neither with a leading zero, and the year as its last two digits, zero-padded (two characters from year 10 on), denoting the year modulo 100 |
| `PantryView.ParseSlashDate` | frontend/js/pantry.js:320 | a parsed M/D/YY string renders back to itself |
| `PantryView.RenderRoundTrip` | frontend/js/pantry.js:320 | a rendered date whose month and day are digits parses back to the same parts |
| `PantryView.TwoWeeksRoundTrip` | frontend/js/pantry.js:314-321 | the date two weeks out parses back to its month, day and year |
| `PantryView.HighlightMatch` | frontend/js/pantry.js:323-327 | no snippet exactly when the lower-cased query occurs nowhere; otherwise the bold part starts at the first occurrence and matches the query ignoring case, with at most 2 characters of left context and 6 of right, all a contiguous slice of the ingredient |
| `RecipeView.Round` | frontend/js/recipes.js:28 | `Math.round` gives the whole number within one half of its argument, rounding halves up |
| `RecipeView.ReceivedScore` | backend/routes/recipes.js:88 | the score as the page reads it, NaN arriving as `null`; its effect is stated by `RecipeView.ScorePercent` and `RecipeView.NoIngredientsShowsZero` |
| `RecipeView.ScorePercent` | frontend/js/recipes.js:28 | a NaN score, sent by `res.json` as `null`, shows 0%; any other score in [0, 1] shows a percentage in 0..100 within one half of score * 100 |
| `RecipeView.ScoreBucket` | frontend/js/recipes.js:29-34 | high exactly at 75 or more, mid exactly from 40 to 74, low below 40 |
| `RecipeView.NoIngredientsShowsZero` | frontend/js/recipes.js:28-34 | a recipe without ingredients, scored NaN by the server, reaches its card as 0% in the low bucket |
| `RecipeView.BucketMonotone` | frontend/js/recipes.js:29-34 | a higher percentage never falls in a lower colour bucket |
| `RecipeView.RecipeCard` | frontend/js/recipes.js:41-88 | the expiring badge follows `usesExpiring`; the need list and add-missing button appear exactly when something is missing, and the "can make" badge otherwise; the prep button follows `prep_required` |
| `RecipeView.CanMakeIffFullScore` | frontend/js/recipes.js:64-81 | for a recipe with ingredients, "can make" shows exactly when the score is 1, and then the badge reads 100% in the high bucket |
| `RecipeView.ConfirmAddMissing` | frontend/js/recipes.js:157-168 | nothing is sent exactly when the trimmed list name is empty; otherwise the request carries the trimmed name and one item per missing ingredient |
| `RecipeView.ConfirmCreatesList` | frontend/js/recipes.js:162-168 | confirming creates a list under the trimmed name with one unchecked item per missing ingredient, in order, with quantity 1 and unit "item" |
| `RecipeView.FindRecipe` | frontend/js/recipes.js:249-252 | the recipe found is the first whose name equals the requested one ignoring case, and there is none exactly when no name does |
| `RecipeView.ChosenInstructions` | frontend/js/recipes.js:255 | `Instructions` is used when truthy, and `instructions` otherwise |
| `RecipeView.StepsOf` | frontend/js/recipes.js:267-269 | an array is used as is; a string is cut by `Text.SplitSteps` into non-empty steps without newlines that together spell the text minus its newlines |
| `RecipeView.Numbered` | frontend/js/recipes.js:279-288 | steps are numbered 1..n in order |
| `RecipeView.InstructionsViewAsWritten` | frontend/js/recipes.js:249-264 | as written, an unknown recipe name ends in the load-failure text, and a known one never does |
| `RecipeView.InstructionsView` | frontend/js/recipes.js:255-288 | with the null test in effect the dialog never fails: an unknown recipe or empty instructions show "no instructions"; otherwise it shows the recipe's name and its steps, numbered from 1: the array's entries, or the pieces `Text.SplitSteps` cuts from the text, which spell the text minus its newlines |
| `RecipeView.AsWrittenDiffersOnlyWhenUnknown` | frontend/js/recipes.js:255-257 | the code as written and the corrected dialog agree on every known recipe, and differ on every unknown one |
| `RecipeView.UnknownRecipeCounterexample` | frontend/js/recipes.js:255 | with no recipes, asking for "Soup" fails as written and shows "no instructions" when corrected |
| `RecipeView.TextStepsShown` | frontend/js/recipes.js:267-288 | instructions stored as newline-joined text show exactly the joined steps, numbered from 1 |
| `AppShell.DisplayName` | frontend/js/app.js:62 | the display name is the user's name when it is non-empty, and the username otherwise |
| `AppShell.SetGreeting` | frontend/js/app.js:66-74 | morning exactly before 12, afternoon exactly from 12 to 16, evening exactly from 17; the name shown is the prefix before the first space |
| `AppShell.DashboardRow` | frontend/js/app.js:89-92 | for a stored date string, a readable date shows the least whole number of days reaching the expiry and is urgent exactly when the expiry is within 3 days; an unreadable one shows NaN and is not urgent |
| `AppShell.DashboardDaysInWindow` | frontend/js/app.js:87-92 | every row built from the `/expiring` answer shows between 0 and 7 days left |
| `AppShell.TopPurchases` | frontend/js/app.js:134-135 | the panel shows the first min(5, n) entries in the order received |
| `AppShell.ShowPage` | frontend/js/app.js:162-165 | a page is active exactly when its id is `page-` plus the target, and hidden exactly when not active |
| `AppShell.ActivateButtons` | frontend/js/app.js:157-159 | a nav button is active exactly when its page is the target |
| `AppShell.ExactlyOnePageShown` | frontend/js/app.js:157-165 | with distinct page ids at most one page is active, and a page is visible exactly when the target page exists |
| `AppShell.NavigateTo` | frontend/js/app.js:168-173 | a first visit sets the flag and initialises the page's module if it has one; a later visit initialises nothing |
| `AppShell.InitOnce` | frontend/js/app.js:155-174 | along any sequence of navigations no module is initialised twice, and a module not loaded before is initialised exactly when its page is visited |

## Left out

- Express routing, sessions, the auth middleware and the login routes (backend/routes/auth.js): plumbing and foreign crypto. The session is a `Store.Session` parameter.
- The Mongo driver and backend/db/connection.js: database I/O. A read is an input `Db` and a write is the returned `Db`.
- Store-generated `_id`s and the `insertedId` in the replies: modelled only as fresh natural numbers.
- The fetch wrapper (frontend/js/api.js), the image and Wikipedia routes and frontend/js/wikipedia.js: network I/O.
- `GET /api/pantry`, `GET /api/shopping` and `GET /api/pantry/suggest-expiry`: plain reads sorted by the database. Only their owner keys are used, in `Ownership`.
- `/api/recipes/daily`: `$sample` is random.
- `/api/shopping/history`: a `$group`/`$sort`/`$limit` pipeline that the database engine runs.
- The prep-instructions route and `showPrepModal`: a plain query and its rendering.
- HTML strings, event wiring, timers, `alert`/`confirm`/`prompt` and the `localStorage` API: DOM and browser I/O. The prompt's answer and the form fields are parameters, and the image cache is a map.
- A failing `localStorage.setItem` (swallowed at frontend/js/pantry.js:112-114) and a stored cache that parses to `null` (which would make the lookup throw): browser storage states outside the model.
- Parsing "M/D/YY" with `new Date(string)`: abstracted into `Dates.Expiry`. The calendar rollover of `setDate(d + 14)` is not modelled; `PantryView.TwoWeeksText` takes the resulting month, day and year.
- The route computes `new Date()` once per recipe; the model uses one `now` per request. The dashboard's `now` is a separate parameter from the server's.
- `parseFloat` of the quantity field: a parameter that is already parsed.
- `Number()` beyond digit strings: other strings give NaN in the model, whereas JavaScript also reads signs, decimals, exponents and blank strings.
- Floating point: scores and percentages are exact rationals, not IEEE doubles.
- Lower- and upper-casing and white space: ASCII only.
- An array or object value in a request body: the single value `Object`.
- JSON `true` and `false` in a request body are not represented by `Js.Value`: in JavaScript `Number(true)` is 1 and a `false` ingredient is falsy, so backend/routes/pantry.js:27-29 would answer 400; the model has no such values.
- A `null` entry or a non-array `items` in a create request: the items are a sequence of strings and objects.
- `capitalize` in frontend/js/shopping.js returns "" for a falsy argument, where the pantry page's copy has no guard; both agree on strings, which is all the model passes.
- An update whose body sets no field: taken as a successful no-op, although the real driver may reject an empty `$set`.
- `decodeURIComponent` of route parameters, and the second decode on the recipe page (frontend/js/recipes.js:251): the name is taken as already decoded.
- frontend/js/app.js:4 imports `getTopRecipe`, which frontend/js/recipes.js does not export, so the dashboard module cannot load in a browser. The dashboard logic is modelled as if it loaded; the top-recipe panel is not modelled.
- A non-numeric toggle index is NaN, passes the bounds test at backend/routes/shopping.js:109, and the indexing then throws: the model answers 500.
- An empty ingredient list: the code divides 0 by 0 and the score is NaN; the model keeps NaN (`Suggestions.ScoreOf`).
- Suggestions.Suggest: when a recipe has no ingredients its score is NaN, and the sort reads a NaN comparison as 0, so the comparator can be inconsistent (a NaN score ties with two different scores); the contract gives only the multiset of records whenever a score is NaN, including the cases where JavaScript does define the order.
- Suggestions.Suggest: catalogue recipes are typed, with a string `name` and a list of string `Ingredients`; a recipe document without them makes `recipe.Ingredients.map(i => i.toLowerCase())` (backend/routes/recipes.js:60) throw and the handler answer 500, which the model does not represent.
- RecipeView.FindRecipe: for the same reason, a recipe whose `name` is not a string, which makes `r.name.toLowerCase()` (frontend/js/recipes.js:251) throw, is not represented.
- ShoppingRoutes.UpdateList: the body's `items` is a sequence of well-formed items, each with a boolean `checked`; backend/routes/shopping.js:59 stores whatever value is sent (null, a string, entries without `checked`), after which a toggle or a move may throw or flip an undefined flag, which the model does not represent.
- AppShell.DashboardRow: requires a stored date string. An absent (`null`) date reads as the epoch in `new Date(null)`, giving a large negative count and "urgent", while `undefined` or "" gives NaN; `Dates.Expiry` does not tell these apart, and the panel only shows items from `/expiring`, which all have a readable date (`AppShell.DashboardDaysInWindow`).
- PantryRoutes.UpdateItem: a duplicate `_id` in the store is not modelled (Mongo keeps `_id`s unique); the model matches the first document.
- ShoppingRoutes.UpdateList: a duplicate `_id` in the store is not modelled, as above.

## Findings

| source | as written | input that shows it | evidently intended | confidence | as-written member | corrected member |
|---|---|---|---|---|---|---|
| frontend/js/recipes.js:255-257 | `recipe.Instructions` is read before the `!recipe` test, so an unknown name throws and the dialog shows the load-failure text | no recipes, requested name "Soup" | an unknown recipe shows "No cooking instructions added yet" | not executed | `RecipeView.InstructionsViewAsWritten`, `RecipeView.UnknownRecipeCounterexample` | `RecipeView.InstructionsView` |
| backend/routes/recipes.js:43-46 | the suggestions select pantry documents by `username`, while backend/routes/pantry.js:44-46 stamps items with `userId`, so items added on the pantry page are never scored | empty store, user id "id1", username "ann", add "tomato", then ask for suggestions for a tomato-only recipe | the suggestions read the caller's pantry, keyed by `userId` as the pantry routes are | not executed | `Ownership.SuggestionPantry`, `Ownership.OwnerMismatchCounterexample`, `Ownership.AddedItemNotSuggested` | `Ownership.SuggestionPantryByUserId`, `Ownership.AddedItemSuggestedByUserId` |

=== FILE: app_shell.dfy ===
/** The application shell: the dashboard greeting, the days-left figures
    of the expiring panel, the purchase-history cap, and page navigation
    with its initialise-once rule. */
module AppShell {
  import opened Js
  import opened Text
  import opened Dates
  import opened Store
  import opened PantryRoutes

  // ---------------------------------------------------------------------
  // setGreeting

  datatype TimeOfDay = Morning | Afternoon | Evening

  /** `user.name || user.username`; `None` stands for a missing name. */
  function DisplayName(name: Option<string>, username: string): (r: string)
    ensures name.Some? && name.value != "" ==> r == name.value
    ensures name.None? || name.value == "" ==> r == username
  {
    if name.Some? && name.value != "" then name.value else username
  }

  datatype Greeting = Greeting(time: TimeOfDay, name: string)

  /** The greeting for the hour `new Date().getHours()` and the display
      name: the time of day, and the name up to its first space. */
  function SetGreeting(hour: int, name: string): (r: Greeting)
    ensures r.time == Morning <==> hour < 12
    ensures r.time == Afternoon <==> 12 <= hour < 17
    ensures r.time == Evening <==> 17 <= hour
    ensures |r.name| <= |name| && r.name == name[..|r.name|]
    ensures forall i :: 0 <= i < |r.name| ==> r.name[i] != ' '
    ensures r.name == name || name[|r.name|] == ' '
  {
    var time := if hour < 12 then Morning else if hour < 17 then Afternoon else Evening;
    Greeting(time, FirstWord(name))
  }

  // ---------------------------------------------------------------------
  // loadDashboard: the expiring panel

  /** `Math.ceil((exp - now) / day)`: NaN when the date does not parse. */
  datatype DaysLeftValue = Days(d: int) | NaNDays

  datatype Urgency = Urgent | SoonUrgency

  datatype ExpiringRow = ExpiringRow(daysLeft: DaysLeftValue, urgency: Urgency)

  /** One row of the expiring panel, for a stored date that is a string.
      An unreadable one gives NaN days, and `daysLeft <= 3` is false for
      NaN, so it counts as "soon". */
  function DashboardRow(e: Expiry, now: int): (r: ExpiringRow)
    requires !e.NoDate?
    ensures r.daysLeft.Days? <==> e.At?
    ensures e.At? ==> (r.daysLeft.d - 1) * DayMs < e.ms - now <= r.daysLeft.d * DayMs
    ensures r.urgency == Urgent <==> e.At? && e.ms - now <= 3 * DayMs
  {
    if e.At? then
      var d := DaysLeft(e.ms, now);
      ExpiringRow(Days(d), if d <= 3 then Urgent else SoonUrgency)
    else ExpiringRow(NaNDays, SoonUrgency)
  }

  /** Every row built from the expiring route's answer, with the same
      `now`, shows between 0 and 7 days left. */
  lemma DashboardDaysInWindow(db: Db, session: Session, now: int, i: nat)
    requires i < |Expiring(db, session, now)|
    ensures var row := DashboardRow(Expiring(db, session, now)[i].expiration, now);
            row.daysLeft.Days? && 0 <= row.daysLeft.d <= 7
  {
    var item := Expiring(db, session, now)[i];
    assert ExpiringWithinWeek(item, session, now);
    var d := DaysLeft(item.expiration.ms, now);
    assert (d - 1) * DayMs < item.expiration.ms - now <= d * DayMs;
    assert 0 <= item.expiration.ms - now <= 7 * DayMs;
  }

  // ---------------------------------------------------------------------
  // loadDashboard: purchase history

  /** `history.slice(0, 5)` */
  function TopPurchases<T>(history: seq<T>): (r: seq<T>)
    ensures |r| == (if |history| < 5 then |history| else 5)
    ensures r == history[..|r|]
  {
    if |history| < 5 then history else history[..5]
  }

  // ---------------------------------------------------------------------
  // navigateTo

  /** A page section's `hidden` and `active` classes after a navigation. */
  datatype PageState = PageState(hidden: bool, active: bool)

  /** The class toggles on every `.page` element, given their ids. */
  function ShowPage(pageIds: seq<string>, pageName: string): (r: seq<PageState>)
    ensures |r| == |pageIds|
    ensures forall i :: 0 <= i < |pageIds| ==>
      (r[i].active <==> pageIds[i] == "page-" + pageName) && r[i].hidden == !r[i].active
  {
    seq(|pageIds|, i requires 0 <= i < |pageIds| =>
      PageState(pageIds[i] != "page-" + pageName, pageIds[i] == "page-" + pageName))
  }

  /** The `active` toggle on every `.nav-btn`, given their `data-page`. */
  function ActivateButtons(buttonPages: seq<string>, pageName: string): (r: seq<bool>)
    ensures |r| == |buttonPages|
    ensures forall i :: 0 <= i < |buttonPages| ==> (r[i] <==> buttonPages[i] == pageName)
  {
    seq(|buttonPages|, i requires 0 <= i < |buttonPages| => buttonPages[i] == pageName)
  }

  /** With distinct page ids, exactly the page of the target is visible and
      active when it exists, and no page otherwise. */
  lemma ExactlyOnePageShown(pageIds: seq<string>, pageName: string)
    requires forall i, j :: 0 <= i < j < |pageIds| ==> pageIds[i] != pageIds[j]
    ensures var r := ShowPage(pageIds, pageName);
            && (forall i, j :: 0 <= i < |r| && 0 <= j < |r| && r[i].active && r[j].active ==> i == j)
            && ((exists i :: 0 <= i < |r| && !r[i].hidden) <==> "page-" + pageName in pageIds)
  {
    var r := ShowPage(pageIds, pageName);
    if "page-" + pageName in pageIds {
      var k :| 0 <= k < |pageIds| && pageIds[k] == "page-" + pageName;
      assert !r[k].hidden;
    }
  }

  /** The page modules: only these three have an initialiser. */
  predicate HasModule(pageName: string) {
    pageName == "pantry" || pageName == "recipes" || pageName == "shopping"
  }

  /** The flags of `pageModulesLoaded` and the page modules initialised so
      far, in order. */
  datatype Shell = Shell(loaded: set<string>, inits: seq<string>)

  /** The init-once part of `navigateTo(pageName)`. The flag is tested and
      set with no `await` between, so calls that overlap while an
      initialiser is pending see it set. */
  function NavigateTo(s: Shell, pageName: string): (r: Shell)
    ensures r.loaded == s.loaded + {pageName}
    ensures pageName in s.loaded ==> r.inits == s.inits
    ensures pageName !in s.loaded && HasModule(pageName) ==> r.inits == s.inits + [pageName]
    ensures pageName !in s.loaded && !HasModule(pageName) ==> r.inits == s.inits
  {
    if pageName in s.loaded then s
    else Shell(s.loaded + {pageName}, if HasModule(pageName) then s.inits + [pageName] else s.inits)
  }

  /** A sequence of navigations, one after another. */
  function Navigations(s: Shell, pages: seq<string>): (r: Shell)
    decreases |pages|
  {
    if |pages| == 0 then s else Navigations(NavigateTo(s, pages[0]), pages[1..])
  }

  /** Every page initialised has a module and its flag set, and no page
      is initialised twice. */
  predicate InitsConsistent(s: Shell) {
    && (forall i :: 0 <= i < |s.inits| ==> s.inits[i] in s.loaded && HasModule(s.inits[i]))
    && (forall i, j :: 0 <= i < j < |s.inits| ==> s.inits[i] != s.inits[j])
  }

  /** Along any sequence of navigations each page module is initialised at
      most once: the initialisations never repeat, and a module is
      initialised exactly when its page is visited for the first time. */
  lemma {:induction false} InitOnce(s: Shell, pages: seq<string>)
    requires InitsConsistent(s)
    ensures InitsConsistent(Navigations(s, pages))
    ensures Navigations(s, pages).loaded == s.loaded + (set i | 0 <= i < |pages| :: pages[i])
    ensures |s.inits| <= |Navigations(s, pages).inits|
    ensures Navigations(s, pages).inits[..|s.inits|] == s.inits
    ensures forall p :: HasModule(p) && p !in s.loaded ==>
              (p in Navigations(s, pages).inits <==> p in pages)
    decreases |pages|
  {
    if |pages| > 0 {
      var s' := NavigateTo(s, pages[0]);
      assert InitsConsistent(s');
      InitOnce(s', pages[1..]);
      var rest := set i | 0 <= i < |pages[1..]| :: pages[1..][i];
      assert (set i | 0 <= i < |pages| :: pages[i]) == {pages[0]} + rest by {
        forall x | x in (set i | 0 <= i < |pages| :: pages[i])
          ensures x in {pages[0]} + rest
        {
          var i :| 0 <= i < |pages| && pages[i] == x;
          if i > 0 {
            assert pages[1..][i - 1] == x;
          }
        }
      }
      var r := Navigations(s', pages[1..]);
      assert r.inits[..|s'.inits|] == s'.inits;
      assert r.inits[..|s.inits|] == s'.inits[..|s.inits|];
      forall p | HasModule(p) && p !in s.loaded
        ensures p in r.inits <==> p in pages
      {
        if p == pages[0] {
          assert s'.inits[|s.inits|] == p;
          assert r.inits[|s.inits|] == p;
        } else {
          assert p in pages <==> p in pages[1..];
        }
      }
    }
  }
}

=== FILE: dates.dfy ===
/** Expiration dates as the routes and views compare them. A stored
    `expiration_date` is a free-text string that `new Date(...)` parses;
    the model keeps only the outcome of that parse. Every comparison with an
    Invalid Date is false, so only `At` dates ever pass a window test. */
module Dates {

  /** The parsed form of a stored `expiration_date`: absent or falsy
      (`NoDate`), a string `new Date` cannot read (`Unparsable`), or a
      readable one, kept as milliseconds since the epoch with its text. */
  datatype Expiry = NoDate | Unparsable(raw: string) | At(ms: int, raw: string)

  /** `24 * 60 * 60 * 1000` */
  const DayMs: int := 86_400_000

  /** `new Date(e) <= t` */
  predicate OnOrBefore(e: Expiry, t: int) {
    e.At? && e.ms <= t
  }

  /** `new Date(e) >= t` */
  predicate OnOrAfter(e: Expiry, t: int) {
    e.At? && e.ms >= t
  }

  /** `new Date(e) < t` */
  predicate Before(e: Expiry, t: int) {
    e.At? && e.ms < t
  }

  /** `exp >= now && exp <= now + days` for a whole number of days. */
  predicate WithinDays(e: Expiry, now: int, days: nat) {
    OnOrAfter(e, now) && OnOrBefore(e, now + days * DayMs)
  }

  /** Undated and unparsable expirations never fall in a window, are never
      before a time and never at or before one. */
  lemma NoDateNeverCompares(e: Expiry, t: int, now: int, days: nat)
    requires !e.At?
    ensures !OnOrBefore(e, t) && !OnOrAfter(e, t) && !Before(e, t) && !WithinDays(e, now, days)
  {
  }

  /** `Math.ceil(a / b)` for a positive divisor. */
  function CeilDiv(a: int, b: int): (r: int)
    requires b > 0
    ensures (r - 1) * b < a <= r * b
  {
    -((-a) / b)
  }

  /** `Math.ceil((exp - now) / (1000 * 60 * 60 * 24))` on the dashboard. */
  function DaysLeft(expMs: int, nowMs: int): (r: int)
    ensures (r - 1) * DayMs < expMs - nowMs <= r * DayMs
  {
    CeilDiv(expMs - nowMs, DayMs)
  }

  /** An item dated inside the 7-day window has 0 to 7 days left. */
  lemma DaysLeftInWindow(expMs: int, nowMs: int)
    requires nowMs <= expMs <= nowMs + 7 * DayMs
    ensures 0 <= DaysLeft(expMs, nowMs) <= 7
  {
  }

  /** Days left never decrease as the expiry moves later. */
  lemma DaysLeftMonotone(e1: int, e2: int, nowMs: int)
    requires e1 <= e2
    ensures DaysLeft(e1, nowMs) <= DaysLeft(e2, nowMs)
  {
  }
}

=== FILE: js.dfy ===
/** JavaScript value semantics that the routes and views depend on: the
    scalars that arrive in JSON request bodies and sit in stored documents,
    their truthiness, `Number(...)` conversion and `toLowerCase()`. */
module Js {

  datatype Option<T> = None | Some(value: T)

  /** A JavaScript value as the application sees it in a request body or a
      stored document. `Object` stands for any non-string object value (it
      is what the shopping-list route stores when it falls back to the item
      object itself). */
  datatype Value = Undefined | Null | Str(s: string) | Num(n: real) | NaN | Object

  /** JavaScript truthiness: "", 0, NaN, null and undefined are falsy. */
  predicate Truthy(v: Value) {
    match v
    case Str(s) => s != ""
    case Num(n) => n != 0.0
    case Object => true
    case _ => false
  }

  /** `v || fallback` */
  function Or(v: Value, fallback: Value): Value {
    if Truthy(v) then v else fallback
  }

  // ---------------------------------------------------------------------
  // Case mapping (ASCII letters only)

  predicate IsUpper(c: char) { 'A' <= c <= 'Z' }
  predicate IsLowerLetter(c: char) { 'a' <= c <= 'z' }

  function LowerChar(c: char): char {
    if IsUpper(c) then (c as int + 32) as char else c
  }

  function UpperChar(c: char): char {
    if IsLowerLetter(c) then (c as int - 32) as char else c
  }

  /** `s.toLowerCase()` */
  function Lower(s: string): (r: string)
    ensures |r| == |s|
    ensures forall i :: 0 <= i < |s| ==> r[i] == LowerChar(s[i])
  {
    seq(|s|, i requires 0 <= i < |s| => LowerChar(s[i]))
  }

  /** A string in which no upper-case letter is left. */
  predicate IsLowered(s: string) {
    forall i :: 0 <= i < |s| ==> !IsUpper(s[i])
  }

  /** Lower-casing leaves no upper-case letter, changes nothing in a string
      that has none, and so is idempotent. */
  lemma LowerNormalises(s: string)
    ensures IsLowered(Lower(s))
    ensures IsLowered(s) ==> Lower(s) == s
    ensures Lower(Lower(s)) == Lower(s)
  {
    assert forall i :: 0 <= i < |s| ==> !IsUpper(LowerChar(s[i]));
  }

  /** Lower-casing commutes with slicing. */
  lemma LowerSlice(s: string, a: int, b: int)
    requires 0 <= a <= b <= |s|
    ensures Lower(s)[a..b] == Lower(s[a..b])
  {
  }

  /** Lower-casing distributes over concatenation. */
  lemma LowerAppend(s: string, t: string)
    ensures Lower(s + t) == Lower(s) + Lower(t)
  {
  }

  /** `v.toLowerCase()`: only strings have the method; on anything else
      the call throws a TypeError, modelled as `None`. */
  function LowerValue(v: Value): (r: Option<string>)
    ensures r.Some? <==> v.Str?
    ensures r.Some? ==> r.value == Lower(v.s)
  {
    match v
    case Str(s) => Some(Lower(s))
    case _ => None
  }

  // ---------------------------------------------------------------------
  // Decimal numerals and Number(...)

  predicate IsDigit(c: char) { '0' <= c <= '9' }

  predicate AllDigits(s: string) {
    forall i :: 0 <= i < |s| ==> IsDigit(s[i])
  }

  function DigitChar(d: nat): char
    requires d < 10
  {
    ('0' as int + d) as char
  }

  /** The value of a string of decimal digits, most significant first. */
  function DigitsValue(s: string): nat
    requires AllDigits(s)
  {
    if |s| == 0 then 0
    else DigitsValue(s[..|s| - 1]) * 10 + (s[|s| - 1] as int - '0' as int)
  }

  /** `String(n)` for a natural number: its shortest decimal numeral. */
  function DecimalText(n: nat): (r: string)
    ensures |r| >= 1
    ensures AllDigits(r)
    ensures n < 10 <==> |r| == 1
  {
    if n < 10 then [DigitChar(n)] else DecimalText(n / 10) + [DigitChar(n % 10)]
  }

  /** Reading back the numeral of `n` gives `n`. */
  lemma {:induction false} DecimalRoundTrip(n: nat)
    ensures DigitsValue(DecimalText(n)) == n
  {
    if n >= 10 {
      var t := DecimalText(n / 10) + [DigitChar(n % 10)];
      assert t[..|t| - 1] == DecimalText(n / 10);
      DecimalRoundTrip(n / 10);
    }
  }

  /** The numeral of `n` never starts with a zero unless `n` is 0, so the
      numeral of a number is a canonical spelling. */
  lemma {:induction false} DecimalNoLeadingZero(n: nat)
    ensures DecimalText(n)[0] == '0' <==> n == 0
  {
    if n >= 10 {
      DecimalNoLeadingZero(n / 10);
    }
  }

  /** `Number(v)`. Strings are read as plain decimal digit strings (the
      empty string is 0); every other spelling reads as NaN in this model. */
  function ToNumber(v: Value): (r: Value)
    ensures r.Num? || r.NaN?
    ensures v.Num? ==> r == v
    ensures v.Str? && AllDigits(v.s) ==> r == Num(DigitsValue(v.s) as real)
  {
    match v
    case Undefined => NaN
    case Null => Num(0.0)
    case Str(s) => if AllDigits(s) then Num(DigitsValue(s) as real) else NaN
    case Num(n) => v
    case NaN => NaN
    case Object => NaN
  }

  /** A quantity typed as the numeral of a natural number converts back to
      that number. */
  lemma NumberOfNumeral(n: nat)
    ensures ToNumber(Str(DecimalText(n))) == Num(n as real)
  {
    DecimalRoundTrip(n);
  }
}

=== FILE: ownership.dfy ===
/** Which pantry documents the suggestions route reads. The route selects
    the pantry by `username`, while the pantry routes stamp and select
    items by `userId`: an item added through the pantry page is never seen
    by the suggestions. `SuggestionPantry` is the query as written;
    `SuggestionPantryByUserId` is the query keyed like the pantry routes. */
module Ownership {
  import opened Js
  import opened Dates
  import opened Seqs
  import opened Store
  import opened PantryRoutes
  import opened Suggestions

  predicate OwnedByName(session: Session, item: PantryItem) {
    item.owner == Username(session.username)
  }

  predicate OwnedById(session: Session, item: PantryItem) {
    item.owner == UserId(session.userId)
  }

  /** `find({ username: req.session.username })` on the pantry, as written. */
  function SuggestionPantry(db: Db, session: Session): (r: seq<PantryItem>)
    ensures forall i :: 0 <= i < |r| ==> r[i].owner == Username(session.username)
    ensures forall i :: 0 <= i < |db.pantry| ==>
              (db.pantry[i] in r <==> db.pantry[i].owner == Username(session.username))
  {
    Filter(db.pantry, (item: PantryItem) => OwnedByName(session, item))
  }

  /** The same query keyed by `userId`, as the pantry routes store items. */
  function SuggestionPantryByUserId(db: Db, session: Session): (r: seq<PantryItem>)
    ensures forall i :: 0 <= i < |r| ==> r[i].owner == UserId(session.userId)
    ensures forall i :: 0 <= i < |db.pantry| ==>
              (db.pantry[i] in r <==> db.pantry[i].owner == UserId(session.userId))
  {
    Filter(db.pantry, (item: PantryItem) => OwnedById(session, item))
  }

  /** As written: an item the caller has just added to the pantry is not
      among the documents the suggestions are scored against. */
  lemma AddedItemNotSuggested(db: Db, session: Session, body: NewItemBody, now: int)
    requires AddItem(db, session, body, now).status == 201
    ensures var after := AddItem(db, session, body, now).db;
            after.pantry[|db.pantry|] !in SuggestionPantry(after, session)
  {
    var after := AddItem(db, session, body, now).db;
    assert after.pantry[|db.pantry|].owner == UserId(session.userId);
  }

  /** Keyed by `userId`, the item just added is among them. */
  lemma AddedItemSuggestedByUserId(db: Db, session: Session, body: NewItemBody, now: int)
    requires AddItem(db, session, body, now).status == 201
    ensures var after := AddItem(db, session, body, now).db;
            after.pantry[|db.pantry|] in SuggestionPantryByUserId(after, session)
  {
    var after := AddItem(db, session, body, now).db;
    assert after.pantry[|db.pantry|].owner == UserId(session.userId);
  }

  /** GET /api/recipes/suggestions over the documents its query selects. */
  function SuggestionsRoute(db: Db, session: Session, recipes: seq<Recipe>, now: int): (r: Response)
    ensures (forall i :: 0 <= i < |db.pantry| ==> !OwnedByName(session, db.pantry[i])) ==>
              r == Suggest([], recipes, now)
    ensures r.ServerError? <==> exists i :: 0 <= i < |db.pantry| && OwnedByName(session, db.pantry[i])
                                            && !db.pantry[i].ingredient.Str?
  {
    Suggest(SuggestionPantry(db, session), recipes, now)
  }

  /** A concrete case: after "tomato" is added through the pantry route,
      the suggestions read an empty pantry and a tomato-only recipe scores
      0 with "tomato" missing; keyed by `userId` the item is found. */
  lemma OwnerMismatchCounterexample(now: int)
    ensures var session := Session("id1", "ann");
            var r := AddItem(Db([], [], [], []), session, NewItemBody(Str("tomato"), Str("1"), Str("item"), NoDate), now);
            var recipe := Recipe("salad", "", ["tomato"], 1.0, false, Missing, Missing);
            && r.status == 201
            && SuggestionPantry(r.db, session) == []
            && |SuggestionPantryByUserId(r.db, session)| == 1
            && SuggestionsRoute(r.db, session, [recipe], now)
               == Ranked([Scored(recipe, [], ["tomato"], Ratio(0.0), false)])
  {
    var session := Session("id1", "ann");
    var r := AddItem(Db([], [], [], []), session, NewItemBody(Str("tomato"), Str("1"), Str("item"), NoDate), now);
    AddTomato(now);
    var byName := SuggestionPantry(r.db, session);
    assert byName == [];
    assert |SuggestionPantryByUserId(r.db, session)| == 1 by {
      assert r.db.pantry[0] in SuggestionPantryByUserId(r.db, session);
    }
    TomatoAgainstEmptyPantry(now);
  }

  /** Adding "tomato" to an empty store succeeds and stores one document,
      stamped with the caller's id. */
  lemma AddTomato(now: int)
    ensures var r := AddItem(Db([], [], [], []), Session("id1", "ann"),
                             NewItemBody(Str("tomato"), Str("1"), Str("item"), NoDate), now);
            r.status == 201 && |r.db.pantry| == 1 && r.db.pantry[0].owner == UserId("id1")
  {
    assert Truthy(Str("tomato")) && Truthy(Str("1")) && Truthy(Str("item"));
  }

  /** Against an empty pantry a tomato-only recipe is the single answer,
      scored 0 with "tomato" missing. */
  lemma TomatoAgainstEmptyPantry(now: int)
    ensures var recipe := Recipe("salad", "", ["tomato"], 1.0, false, Missing, Missing);
            Suggest([], [recipe], now) == Ranked([Scored(recipe, [], ["tomato"], Ratio(0.0), false)])
  {
    var recipe := Recipe("salad", "", ["tomato"], 1.0, false, Missing, Missing);
    SingleRecipe([], recipe, now);
    TomatoScore(now);
  }

  /** A tomato-only recipe against an empty pantry. */
  lemma TomatoScore(now: int)
    ensures var recipe := Recipe("salad", "", ["tomato"], 1.0, false, Missing, Missing);
            ScoreRecipe(recipe, [], [], now) == Scored(recipe, [], ["tomato"], Ratio(0.0), false)
  {
    var recipe := Recipe("salad", "", ["tomato"], 1.0, false, Missing, Missing);
    EmptyPantry(recipe, now);
    LowerTomato();
  }

  lemma LowerTomato()
    ensures LowerAll(["tomato"]) == ["tomato"]
  {
    LowerNormalises("tomato");
    assert IsLowered("tomato");
  }
}

=== FILE: pantry_routes.dfy ===
/** The pantry routes: add, update and delete a pantry item of the caller,
    the 7-day expiring query and the idempotent catalogue insert. */
module PantryRoutes {
  import opened Js
  import opened Dates
  import opened Seqs
  import opened Store

  // ---------------------------------------------------------------------
  // POST /api/pantry

  /** The fields of the request body. `expiration` is `NoDate` when the
      body's `expiration_date` is absent, null or empty. */
  datatype NewItemBody = NewItemBody(ingredient: Value, quantity: Value, unit: Value, expiration: Expiry)

  /** Adds a pantry item for the caller and logs the purchase. */
  function AddItem(db: Db, session: Session, body: NewItemBody, now: int): (r: Reply)
    ensures r.status == 400 <==> !(Truthy(body.ingredient) && Truthy(body.quantity) && Truthy(body.unit))
    ensures r.status == 500 <==> Truthy(body.ingredient) && Truthy(body.quantity) && Truthy(body.unit)
                                 && !body.ingredient.Str?
    ensures r.status == 201 || r.status == 400 || r.status == 500
    ensures r.status != 201 ==> r.db == db
    ensures r.status == 201 ==> |r.db.pantry| == |db.pantry| + 1
    ensures r.status == 201 ==>
      var name := Lower(body.ingredient.s);
      var item := r.db.pantry[|db.pantry|];
      && r.db.catalogue == db.catalogue && r.db.lists == db.lists
      && r.db.pantry == db.pantry + [item]
      && r.db.history == db.history + [Purchase(UserId(session.userId), Str(name), now)]
      && (forall i :: 0 <= i < |db.pantry| ==> db.pantry[i].id != item.id)
      && item.owner == UserId(session.userId)
      && item.ingredient == Str(name)
      && item.quantity == ToNumber(body.quantity)
      && item.unit == body.unit
      && item.dateAdded == now
      && item.expiration == (if body.expiration != NoDate then body.expiration
                             else CatalogueExpiry(db.catalogue, name))
  {
    if !(Truthy(body.ingredient) && Truthy(body.quantity) && Truthy(body.unit)) then
      Reply(400, db)
    else match LowerValue(body.ingredient)
      case None => Reply(500, db)
      case Some(name) =>
        var expiry := if body.expiration != NoDate then body.expiration
                      else CatalogueExpiry(db.catalogue, name);
        var owner := UserId(session.userId);
        var item := PantryItem(NextId(db.pantry, ItemId), owner, Str(name),
                               ToNumber(body.quantity), body.unit, now, expiry);
        Reply(201, db.(pantry := db.pantry + [item],
                       history := db.history + [Purchase(owner, Str(name), now)]))
  }

  /** A stored item's ingredient is lower-case, so pantry "Tomato" is kept
      as "tomato". */
  lemma AddedIngredientIsLowered(db: Db, session: Session, body: NewItemBody, now: int)
    requires AddItem(db, session, body, now).status == 201
    ensures var item := AddItem(db, session, body, now).db.pantry[|db.pantry|];
            item.ingredient.Str? && IsLowered(item.ingredient.s)
  {
    LowerNormalises(body.ingredient.s);
  }

  // ---------------------------------------------------------------------
  // Owner-scoped lookup

  /** The item with this `_id` that belongs to the caller. */
  function OwnedItem(items: seq<PantryItem>, session: Session, id: nat): (r: Option<nat>)
    ensures r.Some? ==> r.value < |items| && items[r.value].id == id
                        && items[r.value].owner == UserId(session.userId)
    ensures r.None? <==> forall i :: 0 <= i < |items| ==>
                           !(items[i].id == id && items[i].owner == UserId(session.userId))
  {
    FirstWhere(items, (it: PantryItem) => it.id == id && it.owner == UserId(session.userId))
  }

  // ---------------------------------------------------------------------
  // PUT /api/pantry/:id

  /** The body of an update; `Undefined` (or `None`) marks a field the
      body leaves out. */
  datatype ItemPatch = ItemPatch(ingredient: Value, quantity: Value, unit: Value, expiration: Option<Expiry>)

  /** The body's `ingredient`, if present, has a `toLowerCase` method. */
  predicate PatchReadable(patch: ItemPatch) {
    patch.ingredient.Undefined? || patch.ingredient.Str?
  }

  /** The `$set` of an update applied to one item. */
  function ApplyPatch(item: PantryItem, patch: ItemPatch): PantryItem
    requires PatchReadable(patch)
  {
    item.(
      ingredient := if patch.ingredient.Undefined? then item.ingredient else Str(Lower(patch.ingredient.s)),
      quantity := if patch.quantity.Undefined? then item.quantity else ToNumber(patch.quantity),
      unit := if patch.unit.Undefined? then item.unit else patch.unit,
      expiration := if patch.expiration.None? then item.expiration else patch.expiration.value)
  }

  /** A patch touches only the fields it carries: identity, owner and date
      added never change, and a field the body leaves out keeps its value. */
  lemma PatchOnlyGivenFields(item: PantryItem, patch: ItemPatch)
    requires PatchReadable(patch)
    ensures var p := ApplyPatch(item, patch);
      && p.id == item.id && p.owner == item.owner && p.dateAdded == item.dateAdded
      && (patch.ingredient.Undefined? ==> p.ingredient == item.ingredient)
      && (patch.ingredient.Str? ==> p.ingredient == Str(Lower(patch.ingredient.s)) && IsLowered(p.ingredient.s))
      && (patch.quantity.Undefined? ==> p.quantity == item.quantity)
      && (!patch.quantity.Undefined? ==> p.quantity == ToNumber(patch.quantity))
      && (!patch.quantity.Undefined? ==> p.quantity.Num? || p.quantity.NaN?)
      && (patch.unit.Undefined? ==> p.unit == item.unit)
      && (!patch.unit.Undefined? ==> p.unit == patch.unit)
      && (patch.expiration.None? ==> p.expiration == item.expiration)
      && (patch.expiration.Some? ==> p.expiration == patch.expiration.value)
  {
    if patch.ingredient.Str? {
      LowerNormalises(patch.ingredient.s);
    }
  }

  /** Applying the same update twice has the effect of applying it once,
      and an empty body changes nothing. */
  lemma PatchIdempotent(item: PantryItem, patch: ItemPatch)
    requires PatchReadable(patch)
    ensures ApplyPatch(ApplyPatch(item, patch), patch) == ApplyPatch(item, patch)
    ensures patch == ItemPatch(Undefined, Undefined, Undefined, None) ==> ApplyPatch(item, patch) == item
  {
  }

  /** Updates the caller's item with this `_id`. */
  function UpdateItem(db: Db, session: Session, id: IdParam, patch: ItemPatch): (r: Reply)
    ensures r.status == 500 <==> !PatchReadable(patch) || id.Malformed?
    ensures r.status == 404 <==> PatchReadable(patch) && id.ObjectId? && OwnedItem(db.pantry, session, id.n).None?
    ensures r.status == 200 || r.status == 404 || r.status == 500
    ensures r.status != 200 ==> r.db == db
    ensures r.status == 200 ==>
      var k := OwnedItem(db.pantry, session, id.n).value;
      && r.db == db.(pantry := db.pantry[k := ApplyPatch(db.pantry[k], patch)])
      && |r.db.pantry| == |db.pantry|
      && forall i :: 0 <= i < |db.pantry| && i != k ==> r.db.pantry[i] == db.pantry[i]
  {
    if !PatchReadable(patch) then Reply(500, db)
    else if id.Malformed? then Reply(500, db)
    else match OwnedItem(db.pantry, session, id.n)
      case None => Reply(404, db)
      case Some(k) => Reply(200, db.(pantry := db.pantry[k := ApplyPatch(db.pantry[k], patch)]))
  }

  // ---------------------------------------------------------------------
  // DELETE /api/pantry/:id

  /** Deletes the caller's item with this `_id`. */
  function DeleteItem(db: Db, session: Session, id: IdParam): (r: Reply)
    ensures r.status == 500 <==> id.Malformed?
    ensures r.status == 404 <==> id.ObjectId? && OwnedItem(db.pantry, session, id.n).None?
    ensures r.status == 200 || r.status == 404 || r.status == 500
    ensures r.status != 200 ==> r.db == db
    ensures r.status == 200 ==>
      var k := OwnedItem(db.pantry, session, id.n).value;
      && r.db == db.(pantry := db.pantry[..k] + db.pantry[k + 1..])
      && |r.db.pantry| == |db.pantry| - 1
  {
    if id.Malformed? then Reply(500, db)
    else match OwnedItem(db.pantry, session, id.n)
      case None => Reply(404, db)
      case Some(k) => Reply(200, db.(pantry := RemoveAt(db.pantry, k)))
  }

  /** Deleting the item just added takes the pantry back to where it was
      (the purchase-history entry stays). */
  lemma AddThenDelete(db: Db, session: Session, body: NewItemBody, now: int)
    requires AddItem(db, session, body, now).status == 201
    ensures var added := AddItem(db, session, body, now).db;
            var item := added.pantry[|db.pantry|];
            var d := DeleteItem(added, session, ObjectId(item.id));
            d.status == 200 && d.db.pantry == db.pantry && d.db.history == added.history
  {
    var added := AddItem(db, session, body, now).db;
    var item := added.pantry[|db.pantry|];
    var k := OwnedItem(added.pantry, session, item.id);
    assert k == Some(|db.pantry|) by {
      assert forall i :: 0 <= i < |db.pantry| ==> added.pantry[i] == db.pantry[i];
    }
    RemoveAppended(db.pantry, item);
  }

  // ---------------------------------------------------------------------
  // GET /api/pantry/expiring

  /** The query and the filter of the route together: the caller's items
      (`userId` match) with a non-null date `d` such that
      `now <= d <= now + 7 days`. */
  predicate ExpiringWithinWeek(item: PantryItem, session: Session, now: int) {
    item.owner == UserId(session.userId) && item.expiration != NoDate
    && WithinDays(item.expiration, now, 7)
  }

  function ExpiryKey(item: PantryItem): real {
    if item.expiration.At? then item.expiration.ms as real else 0.0
  }

  function WithinWeekOf(db: Db, session: Session, now: int): (r: seq<PantryItem>)
    ensures forall i :: 0 <= i < |r| ==> ExpiringWithinWeek(r[i], session, now)
    ensures forall i :: 0 <= i < |db.pantry| ==>
              (db.pantry[i] in r <==> ExpiringWithinWeek(db.pantry[i], session, now))
  {
    Filter(db.pantry, (it: PantryItem) => ExpiringWithinWeek(it, session, now))
  }

  /** The caller's items expiring within 7 days, soonest first. */
  function Expiring(db: Db, session: Session, now: int): (r: seq<PantryItem>)
    ensures multiset(r) == multiset(WithinWeekOf(db, session, now))
    ensures forall i :: 0 <= i < |r| ==> ExpiringWithinWeek(r[i], session, now)
    ensures forall i :: 0 <= i < |db.pantry| ==>
              (db.pantry[i] in r <==> ExpiringWithinWeek(db.pantry[i], session, now))
    ensures forall i, j :: 0 <= i < j < |r| ==> r[i].expiration.ms <= r[j].expiration.ms
  {
    var w := WithinWeekOf(db, session, now);
    var r := SortBy(w, ExpiryKey);
    assert forall i :: 0 <= i < |r| ==> r[i] in multiset(w);
    assert forall i :: 0 <= i < |db.pantry| ==> (db.pantry[i] in r <==> db.pantry[i] in multiset(w));
    r
  }

  /** Items with the same expiry keep their stored order. */
  lemma ExpiringStable(db: Db, session: Session, now: int, d: int)
    ensures WithKey(Expiring(db, session, now), ExpiryKey, d as real)
         == WithKey(WithinWeekOf(db, session, now), ExpiryKey, d as real)
  {
    SortStable(WithinWeekOf(db, session, now), ExpiryKey, d as real);
  }

  // ---------------------------------------------------------------------
  // POST /api/pantry/add-ingredient

  datatype IngredientBody = IngredientBody(ingredient: Value, expiration: Expiry)

  predicate InCatalogue(catalogue: seq<CatalogueEntry>, name: string) {
    exists i :: 0 <= i < |catalogue| && catalogue[i].ingredient == name
  }

  /** Adds a name to the ingredient catalogue unless it is already there. */
  function AddIngredient(db: Db, body: IngredientBody, now: int): (r: Reply)
    ensures r.status == 400 <==> !Truthy(body.ingredient)
    ensures r.status == 500 <==> Truthy(body.ingredient) && !body.ingredient.Str?
    ensures r.status == 200 <==> Truthy(body.ingredient) && body.ingredient.Str?
                                 && InCatalogue(db.catalogue, Lower(body.ingredient.s))
    ensures r.status == 200 || r.status == 201 || r.status == 400 || r.status == 500
    ensures r.status != 201 ==> r.db == db
    ensures r.status == 201 ==>
      r.db == db.(catalogue := db.catalogue + [CatalogueEntry(Lower(body.ingredient.s), now, body.expiration)])
  {
    if !Truthy(body.ingredient) then Reply(400, db)
    else match LowerValue(body.ingredient)
      case None => Reply(500, db)
      case Some(name) =>
        if FirstWhere(db.catalogue, (e: CatalogueEntry) => e.ingredient == name).Some? then Reply(200, db)
        else Reply(201, db.(catalogue := db.catalogue + [CatalogueEntry(name, now, body.expiration)]))
  }

  /** Adding an ingredient a second time, under any casing, inserts
      nothing more. */
  lemma AddIngredientIdempotent(db: Db, body: IngredientBody, again: IngredientBody, now: int, later: int)
    requires AddIngredient(db, body, now).status == 201
    requires again.ingredient.Str? && Lower(again.ingredient.s) == Lower(body.ingredient.s)
    ensures var once := AddIngredient(db, body, now).db;
            AddIngredient(once, again, later) == Reply(200, once)
  {
    var once := AddIngredient(db, body, now).db;
    assert once.catalogue[|db.catalogue|].ingredient == Lower(again.ingredient.s);
    assert again.ingredient.s != "";
  }
}

=== FILE: pantry_view.dfy ===
/** The pantry page: the three list filters, the four-way expiry
    classification of each card, the image cache keyed by lower-cased
    ingredient, the default date of the add form and the autocomplete
    snippet. */
module PantryView {
  import opened Js
  import opened Text
  import opened Dates
  import opened Seqs
  import opened Store

  // ---------------------------------------------------------------------
  // renderPantry: filters

  /** The value of `currentFilter`; a value other than the two named ones
      shows every item. */
  datatype PantryFilter = All | ExpiringSoon | Expired | OtherFilter(name: string)

  /** The "expiring-soon" test: a date from now to seven days ahead. */
  predicate SoonItem(now: int, item: PantryItem) {
    WithinDays(item.expiration, now, 7)
  }

  /** The "expired" test: a date before now. */
  predicate ExpiredItem(now: int, item: PantryItem) {
    Before(item.expiration, now)
  }

  function SoonFilter(now: int): PantryItem -> bool {
    (item: PantryItem) => SoonItem(now, item)
  }

  function ExpiredFilter(now: int): PantryItem -> bool {
    (item: PantryItem) => ExpiredItem(now, item)
  }

  function ShownItems(items: seq<PantryItem>, filter: PantryFilter, now: int): (r: seq<PantryItem>)
    ensures filter.All? || filter.OtherFilter? ==> r == items
    ensures |r| <= |items|
    ensures forall j :: 0 <= j < |r| ==> r[j] in items
    ensures filter.ExpiringSoon? ==> r == Filter(items, SoonFilter(now))
    ensures filter.Expired? ==> r == Filter(items, ExpiredFilter(now))
    ensures filter.ExpiringSoon? ==>
      && (forall j :: 0 <= j < |r| ==>
            r[j].expiration.At? && now <= r[j].expiration.ms <= now + 7 * DayMs)
      && (forall i :: 0 <= i < |items| ==>
            (items[i] in r <==> items[i].expiration.At? && now <= items[i].expiration.ms <= now + 7 * DayMs))
    ensures filter.Expired? ==>
      && (forall j :: 0 <= j < |r| ==> r[j].expiration.At? && r[j].expiration.ms < now)
      && (forall i :: 0 <= i < |items| ==>
            (items[i] in r <==> items[i].expiration.At? && items[i].expiration.ms < now))
  {
    match filter
    case ExpiringSoon => Filter(items, SoonFilter(now))
    case Expired => Filter(items, ExpiredFilter(now))
    case _ => items
  }

  /** No item is shown under both "expiring-soon" and "expired", and
      neither shows an undated item. */
  lemma FiltersDisjoint(items: seq<PantryItem>, now: int)
    ensures var soon := ShownItems(items, ExpiringSoon, now);
            var expired := ShownItems(items, Expired, now);
            && (forall i, j :: 0 <= i < |soon| && 0 <= j < |expired| ==> soon[i] != expired[j])
            && (forall i :: 0 <= i < |items| && items[i].expiration.NoDate? ==>
                  items[i] !in soon && items[i] !in expired)
  {
  }

  // ---------------------------------------------------------------------
  // renderPantry: expiry classification

  /** The CSS class of an item's card: "expired", "expiring-critical",
      "expiring-soon" or none. */
  datatype ExpiryClass = ExpiredClass | Critical | Soon | NoClass

  datatype Badge = Badge(cls: ExpiryClass, text: string)

  /** The class and the expiry text of an item's card. An unparsable date
      is an Invalid Date object: truthy, but every comparison with it is
      false, so it gets no class and keeps its raw text. */
  function Classify(e: Expiry, now: int): (r: Badge)
    ensures r.cls == ExpiredClass <==> e.At? && e.ms < now
    ensures r.cls == Critical <==> e.At? && now <= e.ms <= now + 3 * DayMs
    ensures r.cls == Soon <==> e.At? && now + 3 * DayMs < e.ms <= now + 7 * DayMs
    ensures r.cls == NoClass <==> !e.At? || now + 7 * DayMs < e.ms
    ensures e.NoDate? ==> r.text == "No expiry"
    ensures e.Unparsable? ==> r.text == e.raw
    ensures e.At? ==> r.text == (match r.cls
                                 case ExpiredClass => "Expired " + e.raw
                                 case Critical => "\U{26A0}\U{FE0F} Expires " + e.raw
                                 case Soon => "Expires " + e.raw
                                 case NoClass => e.raw)
  {
    match e
    case NoDate => Badge(NoClass, "No expiry")
    case Unparsable(raw) => Badge(NoClass, raw)
    case At(ms, raw) =>
      if ms < now then Badge(ExpiredClass, "Expired " + raw)
      else if ms <= now + 3 * DayMs then Badge(Critical, "\U{26A0}\U{FE0F} Expires " + raw)
      else if ms <= now + 7 * DayMs then Badge(Soon, "Expires " + raw)
      else Badge(NoClass, raw)
  }

  /** The card classes agree with the filters: an item shown under
      "expiring-soon" is critical or soon, one shown under "expired" is
      marked expired. */
  lemma ClassesMatchFilters(item: PantryItem, now: int)
    ensures SoonItem(now, item) <==> Classify(item.expiration, now).cls in {Critical, Soon}
    ensures ExpiredItem(now, item) <==> Classify(item.expiration, now).cls == ExpiredClass
  {
  }

  // ---------------------------------------------------------------------
  // Image cache

  /** What `localStorage.getItem(IMAGE_CACHE_KEY)` holds: nothing, a JSON
      object, or text `JSON.parse` rejects. */
  datatype StoredCache = Absent | Parsed(entries: map<string, Value>) | Corrupt

  /** `getImageCache()`: a missing or unreadable cache reads as `{}`. */
  function ReadCache(stored: StoredCache): (r: map<string, Value>)
    ensures stored.Parsed? ==> r == stored.entries
    ensures !stored.Parsed? ==> r == map[]
  {
    if stored.Parsed? then stored.entries else map[]
  }

  /** `getCachedImage(ingredient)`: `cache[ingredient.toLowerCase()] || null`. */
  function CachedImage(stored: StoredCache, ingredient: string): (r: Value)
    ensures Lower(ingredient) !in ReadCache(stored) ==> r == Null
    ensures r == Null || Truthy(r)
    ensures Truthy(r) ==> ReadCache(stored)[Lower(ingredient)] == r
    ensures Lower(ingredient) in ReadCache(stored) && Truthy(ReadCache(stored)[Lower(ingredient)]) ==>
              r == ReadCache(stored)[Lower(ingredient)]
  {
    var cache := ReadCache(stored);
    var key := Lower(ingredient);
    if key in cache then Or(cache[key], Null) else Null
  }

  /** `setCachedImage(ingredient, url)`. `JSON.stringify` drops a key whose
      value is `undefined`. */
  function CacheImage(stored: StoredCache, ingredient: string, url: Value): (r: StoredCache)
    ensures r.Parsed?
    ensures url.Undefined? ==> Lower(ingredient) !in r.entries
    ensures !url.Undefined? ==> Lower(ingredient) in r.entries && r.entries[Lower(ingredient)] == url
    ensures forall k :: k in ReadCache(stored) && k != Lower(ingredient) ==> k in r.entries && r.entries[k] == ReadCache(stored)[k]
    ensures forall k :: k in r.entries ==> k in ReadCache(stored) || k == Lower(ingredient)
  {
    var cache := ReadCache(stored);
    var key := Lower(ingredient);
    if url.Undefined? then Parsed(cache - {key}) else Parsed(cache[key := url])
  }

  /** An image stored under one spelling of an ingredient is found under
      any other spelling that lower-cases the same, and no other entry is
      disturbed. */
  lemma CacheCaseInsensitive(stored: StoredCache, a: string, b: string, url: Value)
    ensures Lower(a) == Lower(b) ==>
      CachedImage(CacheImage(stored, a, url), b) == (if Truthy(url) then url else Null)
    ensures Lower(a) != Lower(b) ==>
      CachedImage(CacheImage(stored, a, url), b) == CachedImage(stored, b)
  {
  }

  /** An unreadable cache reads as empty. */
  lemma CorruptReadsEmpty(ingredient: string)
    ensures CachedImage(Corrupt, ingredient) == Null
    ensures CachedImage(Absent, ingredient) == Null
  {
  }

  // ---------------------------------------------------------------------
  // twoWeeksFromToday

  /** The three numerals of an `M/D/YY` date. */
  datatype SlashDate = SlashDate(month: string, day: string, year: string)

  function Render(d: SlashDate): string {
    d.month + "/" + d.day + "/" + d.year
  }

  /** `String(n).slice(-2)`: the last two characters, or all of a shorter
      string. */
  function LastTwo(s: string): (r: string)
    ensures |r| == (if |s| < 2 then |s| else 2)
    ensures r == s[|s| - |r|..]
  {
    if |s| < 2 then s else s[|s| - 2..]
  }

  /** The last digit of a numeral is the number's last decimal digit. */
  lemma {:induction false} DecimalLastDigit(n: nat)
    ensures DecimalText(n)[|DecimalText(n)| - 1] == DigitChar(n % 10)
  {
    if n >= 10 {
      DecimalLastDigit(n / 10);
    }
  }

  /** The value of a two-digit numeral. */
  lemma TwoDigitValue(a: nat, b: nat)
    requires a < 10 && b < 10
    ensures AllDigits([DigitChar(a), DigitChar(b)])
    ensures DigitsValue([DigitChar(a), DigitChar(b)]) == 10 * a + b
  {
    var t := [DigitChar(a), DigitChar(b)];
    assert DigitChar(a) as int - '0' as int == a;
    assert DigitChar(b) as int - '0' as int == b;
    assert t[..1] == [DigitChar(a)];
    assert t[..1][..0] == [];
    assert DigitsValue(t[..1]) == a;
    assert DigitsValue(t) == DigitsValue(t[..1]) * 10 + b;
  }

  /** A number's last two decimal digits make up its remainder modulo 100. */
  lemma ModHundred(n: nat)
    ensures n % 100 == 10 * ((n / 10) % 10) + n % 10
  {
    var q := n / 10;
    assert n == 10 * q + n % 10;
    assert q == 10 * (q / 10) + q % 10;
    ModOfDecomposition(n, q / 10, 10 * (q % 10) + n % 10);
  }

  /** Division by 100 is unique: `n = 100 a + b` with `0 <= b < 100`
      leaves remainder `b`. */
  lemma ModOfDecomposition(n: int, a: int, b: int)
    requires n == 100 * a + b && 0 <= b < 100
    ensures n % 100 == b
  {
    var d := n / 100 - a;
    assert 100 * d == b - n % 100;
  }

  /** The last two characters of a numeral of two or more digits are its
      tens and units digits. */
  lemma LastTwoOfNumeral(n: nat)
    requires n >= 10
    ensures LastTwo(DecimalText(n)) == [DigitChar((n / 10) % 10), DigitChar(n % 10)]
  {
    var head := DecimalText(n / 10);
    var t := DecimalText(n);
    assert t == head + [DigitChar(n % 10)];
    DecimalLastDigit(n / 10);
    assert t[|t| - 2] == head[|head| - 1];
  }

  /** The last two digits of a year's numeral are the year modulo 100. */
  lemma LastTwoDigits(n: nat)
    ensures DigitsValue(LastTwo(DecimalText(n))) == n % 100
  {
    if n >= 10 {
      LastTwoOfNumeral(n);
      TwoDigitValue((n / 10) % 10, n % 10);
      ModHundred(n);
    } else {
      var t := DecimalText(n);
      assert t == [DigitChar(n)];
      assert LastTwo(t) == t;
      assert t[..0] == [];
      assert DigitsValue(t) == DigitsValue(t[..0]) * 10 + n;
    }
  }

  /** `twoWeeksFromToday()` for the calendar fields of the date fourteen
      days ahead: `getMonth()` (0-based), `getDate()` and `getFullYear()`. */
  function TwoWeeksText(month0: nat, day: nat, year: nat): (r: SlashDate)
    requires month0 < 12 && 1 <= day <= 31
    ensures AllDigits(r.month) && AllDigits(r.day) && AllDigits(r.year)
    ensures DigitsValue(r.month) == month0 + 1
    ensures DigitsValue(r.day) == day
    ensures DigitsValue(r.year) == year % 100
    ensures |r.month| >= 1 && r.month[0] != '0'
    ensures |r.day| >= 1 && r.day[0] != '0'
    ensures 1 <= |r.year| <= 2
    ensures year >= 10 ==> |r.year| == 2
  {
    DecimalRoundTrip(month0 + 1);
    DecimalRoundTrip(day);
    DecimalNoLeadingZero(month0 + 1);
    DecimalNoLeadingZero(day);
    LastTwoDigits(year);
    var yr := LastTwo(DecimalText(year));
    assert forall i :: 0 <= i < |yr| ==> yr[i] == DecimalText(year)[|DecimalText(year)| - |yr| + i];
    SlashDate(DecimalText(month0 + 1), DecimalText(day), yr)
  }

  predicate IsSlash(c: char) { c == '/' }

  /** The text before the first slash and the text after it. */
  function SplitSlash(s: string): (r: Option<(string, string)>)
    ensures r.None? <==> forall j :: 0 <= j < |s| ==> s[j] != '/'
    ensures r.Some? ==> s == r.value.0 + "/" + r.value.1
    ensures r.Some? ==> forall j :: 0 <= j < |r.value.0| ==> r.value.0[j] != '/'
  {
    match FirstWhere(s, IsSlash)
    case None => None
    case Some(i) =>
      assert s == s[..i] + [s[i]] + s[i + 1..];
      Some((s[..i], s[i + 1..]))
  }

  /** Splits `M/D/Y` at its first two slashes. */
  function ParseSlashDate(s: string): (r: Option<SlashDate>)
    ensures r.Some? ==> Render(r.value) == s
  {
    match SplitSlash(s)
    case None => None
    case Some((m, rest)) =>
      match SplitSlash(rest)
      case None => None
      case Some((d, y)) => Some(SlashDate(m, d, y))
  }

  /** A slash-free prefix ends at the first slash. */
  lemma SplitAfterDigits(a: string, b: string)
    requires AllDigits(a)
    ensures SplitSlash(a + "/" + b) == Some((a, b))
  {
    var s := a + "/" + b;
    assert IsSlash(s[|a|]);
    assert forall j :: 0 <= j < |a| ==> s[j] == a[j] && !IsSlash(s[j]);
    assert FirstWhere(s, IsSlash) == Some(|a|);
    assert s[..|a|] == a;
    assert s[|a| + 1..] == b;
  }

  /** A date whose month and day are numerals reads back into its three
      parts. */
  lemma RenderRoundTrip(d: SlashDate)
    requires AllDigits(d.month) && AllDigits(d.day)
    ensures ParseSlashDate(Render(d)) == Some(d)
  {
    assert Render(d) == d.month + "/" + (d.day + "/" + d.year);
    SplitAfterDigits(d.month, d.day + "/" + d.year);
    SplitAfterDigits(d.day, d.year);
  }

  /** The formatted date reads back into the same three numerals. */
  lemma TwoWeeksRoundTrip(month0: nat, day: nat, year: nat)
    requires month0 < 12 && 1 <= day <= 31
    ensures var d := TwoWeeksText(month0, day, year);
            ParseSlashDate(Render(d)) == Some(d)
  {
    RenderRoundTrip(TwoWeeksText(month0, day, year));
  }

  // ---------------------------------------------------------------------
  // highlightMatch

  /** The autocomplete snippet: up to two characters before the match, the
      matched text in bold, and up to six after it. */
  datatype Highlight = NoMatch | Snippet(at: nat, before: string, bold: string, after: string)

  function Min(a: int, b: int): int { if a < b then a else b }

  function HighlightMatch(ingredient: string, query: string): (r: Highlight)
    ensures r.NoMatch? <==> forall j :: !OccursAt(Lower(ingredient), Lower(query), j)
    ensures r.Snippet? ==>
      && OccursAt(Lower(ingredient), Lower(query), r.at)
      && (forall j :: 0 <= j < r.at ==> !OccursAt(Lower(ingredient), Lower(query), j))
      && |r.before| == Min(2, r.at) && |r.bold| == |query| && |r.after| <= 6
      && Lower(r.bold) == Lower(query)
      && r.at + |query| + |r.after| <= |ingredient|
      && ingredient[r.at - |r.before|..r.at + |query| + |r.after|] == r.before + r.bold + r.after
      && (|r.after| < 6 ==> r.at + |query| + |r.after| == |ingredient|)
  {
    match IndexOf(Lower(ingredient), Lower(query))
    case None => NoMatch
    case Some(idx) => SnippetAt(ingredient, query, idx)
  }

  /** The snippet around a match at `idx`. */
  function SnippetAt(ingredient: string, query: string, idx: nat): (r: Highlight)
    requires OccursAt(Lower(ingredient), Lower(query), idx)
    ensures r.Snippet? && r.at == idx
    ensures |r.before| == Min(2, idx) && |r.bold| == |query| && |r.after| <= 6
    ensures Lower(r.bold) == Lower(query)
    ensures idx + |query| + |r.after| <= |ingredient|
    ensures ingredient[idx - |r.before|..idx + |query| + |r.after|] == r.before + r.bold + r.after
    ensures |r.after| < 6 ==> idx + |query| + |r.after| == |ingredient|
  {
    var start := if idx - 2 > 0 then idx - 2 else 0;
    var end := Min(idx + |query| + 6, |ingredient|);
    LowerSlice(ingredient, idx, idx + |query|);
    assert ingredient[start..end] == ingredient[start..idx] + ingredient[idx..idx + |query|] + ingredient[idx + |query|..end];
    Snippet(idx, ingredient[start..idx], ingredient[idx..idx + |query|], ingredient[idx + |query|..end])
  }
}

=== FILE: recipe_view.dfy ===
/** The recipe page: the match percentage and its colour bucket, which
    blocks a recipe card shows, the create request of the "add missing to
    shopping list" dialog, and the cooking-instructions dialog. */
module RecipeView {
  import opened Js
  import opened Text
  import opened Seqs
  import opened Store
  import opened ShoppingRoutes
  import opened ShoppingView
  import opened Suggestions

  // ---------------------------------------------------------------------
  // renderRecipeCard: the score badge

  /** `Math.round(x)` is `floor(x + 0.5)`: halves round up. */
  function Round(x: real): (r: int)
    ensures r as real - 0.5 <= x < r as real + 0.5
  {
    (x + 0.5).Floor
  }

  /** The score as the page reads it: `res.json` writes a NaN score as
      `null`, and `null * 100` is 0. */
  function ReceivedScore(score: Score): real {
    match score
    case NotANumber => 0.0
    case Ratio(v) => v
  }

  /** `Math.round(recipe.score * 100)` on the score received. */
  function ScorePercent(score: Score): (r: int)
    ensures score.NotANumber? ==> r == 0
    ensures score.Ratio? && 0.0 <= score.value <= 1.0 ==> 0 <= r <= 100
    ensures score.Ratio? ==> r as real - 0.5 <= score.value * 100.0 < r as real + 0.5
  {
    Round(ReceivedScore(score) * 100.0)
  }

  datatype Bucket = High | Mid | Low

  /** The badge colour. */
  function ScoreBucket(p: int): (r: Bucket)
    ensures r == High <==> p >= 75
    ensures r == Mid <==> 40 <= p < 75
    ensures r == Low <==> p < 40
  {
    if p >= 75 then High
    else if p >= 40 then Mid
    else Low
  }

  /** A higher percentage never gets a lower bucket. */
  lemma BucketMonotone(a: int, b: int)
    requires a <= b
    ensures ScoreBucket(a) == High ==> ScoreBucket(b) == High
    ensures ScoreBucket(a) == Mid ==> ScoreBucket(b) != Low
  {
  }

  /** A recipe without ingredients scores NaN on the server and reaches
      the card as 0%, in the lowest bucket. */
  lemma NoIngredientsShowsZero(recipe: Recipe, items: seq<PantryItem>, names: seq<string>, now: int)
    requires |names| == |items|
    requires |recipe.ingredients| == 0
    ensures var s := ScoreRecipe(recipe, items, names, now);
            ScorePercent(s.score) == 0 && ScoreBucket(ScorePercent(s.score)) == Low
  {
  }

  // ---------------------------------------------------------------------
  // renderRecipeCard: the blocks of the card

  /** Which optional parts a card shows: the expiring badge, the "need"
      list, the add-missing button, the "can make" badge and the prep
      button. */
  datatype CardParts = CardParts(expiringBadge: bool, needList: bool, addMissing: bool,
                                 canMake: bool, prepButton: bool)

  function RecipeCard(s: Scored): (r: CardParts)
    ensures r.expiringBadge <==> s.usesExpiring
    ensures r.needList <==> |s.missing| > 0
    ensures r.addMissing <==> |s.missing| > 0
    ensures r.canMake <==> |s.missing| == 0
    ensures r.prepButton <==> s.recipe.prepRequired
  {
    CardParts(s.usesExpiring, |s.missing| > 0, |s.missing| > 0, |s.missing| == 0, s.recipe.prepRequired)
  }

  /** For a scored recipe with ingredients, the "can make" badge appears
      exactly when the score is 100%, and then the badge is in the top
      bucket. */
  lemma CanMakeIffFullScore(recipe: Recipe, items: seq<PantryItem>, names: seq<string>, now: int)
    requires |names| == |items|
    requires |recipe.ingredients| > 0
    ensures var s := ScoreRecipe(recipe, items, names, now);
            && (RecipeCard(s).canMake <==> s.score == Ratio(1.0))
            && (RecipeCard(s).canMake ==> ScorePercent(s.score) == 100 && ScoreBucket(ScorePercent(s.score)) == High)
  {
  }

  // ---------------------------------------------------------------------
  // handleAddMissing

  /** The confirm button of the dialog: the create request it sends, or
      `None` when the trimmed list name is empty. */
  function ConfirmAddMissing(rawName: string, missing: seq<string>): (r: Option<CreateBody>)
    ensures r.None? <==> AllSpace(rawName)
    ensures r.Some? ==> r.value.name == Str(Trim(rawName)) && Truthy(r.value.name)
    ensures r.Some? ==> r.value.items == Some(ItemsFor(missing))
  {
    var name := Trim(rawName);
    if name == "" then None else Some(CreateBody(Str(name), Some(ItemsFor(missing))))
  }

  /** The request creates a list with one unchecked item per missing
      ingredient, in order, each with quantity 1 and unit "item". */
  lemma ConfirmCreatesList(db: Db, session: Session, rawName: string, missing: seq<string>, now: int)
    requires !AllSpace(rawName)
    ensures var body := ConfirmAddMissing(rawName, missing).value;
            var r := CreateList(db, session, body, now);
            var list := r.db.lists[|db.lists|];
            && r.status == 201
            && list.name == Str(Trim(rawName))
            && |list.items| == |missing|
            && forall i :: 0 <= i < |missing| ==>
                 && list.items[i].quantity == Num(1.0)
                 && list.items[i].unit == Str("item")
                 && !list.items[i].checked
                 && (missing[i] != "" ==> list.items[i].ingredient == Str(Lower(missing[i])))
  {
    MissingItemsCreate(db, session, ConfirmAddMissing(rawName, missing).value, missing, now);
  }

  // ---------------------------------------------------------------------
  // showInstructionsModal

  /** `recipes.find((r) => r.name.toLowerCase() === name.toLowerCase())`,
      as an index. */
  function FindRecipe(recipes: seq<Recipe>, name: string): (r: Option<nat>)
    ensures r.Some? ==> r.value < |recipes| && Lower(recipes[r.value].name) == Lower(name)
    ensures r.Some? ==> forall j :: 0 <= j < r.value ==> Lower(recipes[j].name) != Lower(name)
    ensures r.None? <==> forall j :: 0 <= j < |recipes| ==> Lower(recipes[j].name) != Lower(name)
  {
    FirstWhere(recipes, (rec: Recipe) => Lower(rec.name) == Lower(name))
  }

  /** JavaScript truthiness of an instructions field: an array is always
      truthy, a string when it is not empty. */
  predicate FieldTruthy(f: InstructionField) {
    f.Steps? || (f.Text? && f.text != "")
  }

  /** `recipe.Instructions || recipe.instructions` */
  function ChosenInstructions(recipe: Recipe): (r: InstructionField)
    ensures FieldTruthy(recipe.instructionsUpper) ==> r == recipe.instructionsUpper
    ensures !FieldTruthy(recipe.instructionsUpper) ==> r == recipe.instructionsLower
  {
    if FieldTruthy(recipe.instructionsUpper) then recipe.instructionsUpper else recipe.instructionsLower
  }

  /** A numbered cooking step as the dialog shows it. */
  datatype Step = Step(number: nat, text: string)

  /** `steps.map((step, i) => ... i + 1 ... step ...)` */
  function Numbered(steps: seq<string>): (r: seq<Step>)
    ensures |r| == |steps|
    ensures forall i :: 0 <= i < |steps| ==> r[i].number == i + 1 && r[i].text == steps[i]
  {
    seq(|steps|, i requires 0 <= i < |steps| => Step(i + 1, steps[i]))
  }

  /** The text of each shown step, in order. */
  function StepTexts(steps: seq<Step>): (r: seq<string>)
    ensures |r| == |steps|
    ensures forall i :: 0 <= i < |steps| ==> r[i] == steps[i].text
  {
    seq(|steps|, i requires 0 <= i < |steps| => steps[i].text)
  }

  /** The steps of a truthy field: an array as it is, a string split on
      runs of newlines with empty pieces dropped. */
  function StepsOf(f: InstructionField): (r: seq<string>)
    requires FieldTruthy(f)
    ensures f.Steps? ==> r == f.steps
    ensures f.Text? ==> WellFormedSteps(r) && Concat(r) == StripNewlines(f.text)
  {
    if f.Steps? then f.steps else SplitSteps(f.text)
  }

  /** What the dialog ends up showing. */
  datatype InstructionsDialog = NoInstructions | Failed | Shown(recipeName: string, steps: seq<Step>)

  /** The dialog as written: `recipe.Instructions` is read before the
      `!recipe` test, so an unknown recipe throws and the dialog shows the
      load-failure text. */
  function InstructionsViewAsWritten(recipes: seq<Recipe>, name: string): (r: InstructionsDialog)
    ensures FindRecipe(recipes, name).None? ==> r == Failed
    ensures FindRecipe(recipes, name).Some? ==> r != Failed
  {
    match FindRecipe(recipes, name)
    case None => Failed
    case Some(k) =>
      var data := ChosenInstructions(recipes[k]);
      if !FieldTruthy(data) then NoInstructions
      else Shown(recipes[k].name, Numbered(StepsOf(data)))
  }

  /** The dialog with the `!recipe` test taking effect: an unknown recipe
      shows the "no instructions" text. */
  function InstructionsView(recipes: seq<Recipe>, name: string): (r: InstructionsDialog)
    ensures !r.Failed?
    ensures r.NoInstructions? <==>
      FindRecipe(recipes, name).None? || !FieldTruthy(ChosenInstructions(recipes[FindRecipe(recipes, name).value]))
    ensures r.Shown? ==>
      var recipe := recipes[FindRecipe(recipes, name).value];
      var data := ChosenInstructions(recipe);
      && Lower(r.recipeName) == Lower(name)
      && r.recipeName == recipe.name
      && (forall i :: 0 <= i < |r.steps| ==> r.steps[i].number == i + 1)
      && (data.Steps? ==> |r.steps| == |data.steps| && forall i :: 0 <= i < |r.steps| ==> r.steps[i].text == data.steps[i])
      && (data.Text? ==> forall i :: 0 <= i < |r.steps| ==> r.steps[i].text != "" && NoNewline(r.steps[i].text))
      && (data.Text? ==> StepTexts(r.steps) == SplitSteps(data.text) && Concat(StepTexts(r.steps)) == StripNewlines(data.text))
  {
    match FindRecipe(recipes, name)
    case None => NoInstructions
    case Some(k) =>
      var data := ChosenInstructions(recipes[k]);
      if !FieldTruthy(data) then NoInstructions
      else Shown(recipes[k].name, Numbered(StepsOf(data)))
  }

  /** The two readings differ only for an unknown recipe. */
  lemma AsWrittenDiffersOnlyWhenUnknown(recipes: seq<Recipe>, name: string)
    ensures FindRecipe(recipes, name).Some? ==>
              InstructionsViewAsWritten(recipes, name) == InstructionsView(recipes, name)
    ensures FindRecipe(recipes, name).None? ==>
              InstructionsViewAsWritten(recipes, name) == Failed
              && InstructionsView(recipes, name) == NoInstructions
  {
  }

  /** A name no recipe has: the code as written reports a load failure
      where the intended text is "no instructions". */
  lemma UnknownRecipeCounterexample()
    ensures InstructionsViewAsWritten([], "Soup") == Failed
    ensures InstructionsView([], "Soup") == NoInstructions
  {
  }

  /** Instructions stored as newline-separated text show exactly the steps
      that were joined, numbered from 1. */
  lemma TextStepsShown(recipes: seq<Recipe>, name: string, steps: seq<string>)
    requires FindRecipe(recipes, name).Some?
    requires |steps| > 0 && WellFormedSteps(steps)
    requires ChosenInstructions(recipes[FindRecipe(recipes, name).value]) == Text(JoinLines(steps))
    ensures InstructionsView(recipes, name).Shown?
    ensures InstructionsView(recipes, name).steps == Numbered(steps)
  {
    SplitJoinRoundTrip(steps);
    assert JoinLines(steps) != "" by {
      assert |JoinLines(steps)| >= |steps[0]|;
    }
  }
}

=== FILE: seqs.dfy ===
/** Sequence operations the application performs through JavaScript array
    methods: `filter`, `find`/`findIndex`, index removal and the stable
    `Array.prototype.sort`. */
module Seqs {
  import opened Js

  // ---------------------------------------------------------------------
  // filter

  /** `xs.filter(p)` */
  function Filter<T>(xs: seq<T>, p: T -> bool): (r: seq<T>)
    ensures |r| <= |xs|
    ensures forall i :: 0 <= i < |r| ==> p(r[i])
    ensures forall i :: 0 <= i < |r| ==> r[i] in xs
    ensures forall i :: 0 <= i < |xs| ==> (xs[i] in r <==> p(xs[i]))
  {
    if |xs| == 0 then []
    else (if p(xs[0]) then [xs[0]] else []) + Filter(xs[1..], p)
  }

  /** `filter` distributes over concatenation. */
  lemma {:induction false} FilterAppend<T>(xs: seq<T>, ys: seq<T>, p: T -> bool)
    ensures Filter(xs + ys, p) == Filter(xs, p) + Filter(ys, p)
  {
    if |xs| == 0 {
      assert xs + ys == ys;
    } else {
      assert (xs + ys)[1..] == xs[1..] + ys;
      FilterAppend(xs[1..], ys, p);
    }
  }

  /** A predicate and its negation split a sequence: every element, with
      its multiplicity, goes to exactly one side. */
  lemma {:induction false} FilterPartition<T>(xs: seq<T>, p: T -> bool, q: T -> bool)
    requires forall i :: 0 <= i < |xs| ==> q(xs[i]) == !p(xs[i])
    ensures |Filter(xs, p)| + |Filter(xs, q)| == |xs|
    ensures multiset(Filter(xs, p)) + multiset(Filter(xs, q)) == multiset(xs)
  {
    if |xs| > 0 {
      var x, t := xs[0], xs[1..];
      assert xs == [x] + t;
      FilterPartition(t, p, q);
      FilterCons(x, t, p);
      FilterCons(x, t, q);
      if p(x) {
        assert Filter(xs, q) == Filter(t, q);
        assert multiset(Filter(xs, p)) == multiset{x} + multiset(Filter(t, p));
      } else {
        assert Filter(xs, p) == Filter(t, p);
        assert multiset(Filter(xs, q)) == multiset{x} + multiset(Filter(t, q));
      }
    }
  }

  /** `filter` of a sequence with a known first element. */
  lemma FilterCons<T>(x: T, t: seq<T>, p: T -> bool)
    ensures Filter([x] + t, p) == (if p(x) then [x] else []) + Filter(t, p)
  {
    assert ([x] + t)[1..] == t;
  }

  /** Filtering keeps everything exactly when every element passes. */
  lemma {:induction false} FilterAll<T>(xs: seq<T>, p: T -> bool)
    ensures Filter(xs, p) == xs <==> forall i :: 0 <= i < |xs| ==> p(xs[i])
  {
    if |xs| > 0 {
      FilterAll(xs[1..], p);
      if !p(xs[0]) {
        assert |Filter(xs, p)| < |xs|;
      }
    }
  }

  /** Filtering drops everything exactly when no element passes. */
  lemma {:induction false} FilterNone<T>(xs: seq<T>, p: T -> bool)
    ensures Filter(xs, p) == [] <==> forall i :: 0 <= i < |xs| ==> !p(xs[i])
  {
    if |xs| > 0 {
      FilterNone(xs[1..], p);
      if p(xs[0]) {
        assert Filter(xs, p)[0] == xs[0];
      } else {
        assert forall i :: 1 <= i < |xs| ==> xs[i] == xs[1..][i - 1];
      }
    }
  }

  // ---------------------------------------------------------------------
  // find / findIndex

  /** `xs.findIndex(p)`, with `None` standing for -1. */
  function FirstWhere<T>(xs: seq<T>, p: T -> bool): (r: Option<nat>)
    ensures r.Some? ==> r.value < |xs| && p(xs[r.value])
    ensures r.Some? ==> forall j :: 0 <= j < r.value ==> !p(xs[j])
    ensures r.None? <==> forall j :: 0 <= j < |xs| ==> !p(xs[j])
  {
    if |xs| == 0 then None
    else if p(xs[0]) then Some(0)
    else match FirstWhere(xs[1..], p)
      case None => None
      case Some(k) => Some(k + 1)
  }

  // ---------------------------------------------------------------------
  // removal and replacement by index

  /** `xs.filter((_, j) => j !== i)` */
  function RemoveAt<T>(xs: seq<T>, i: int): (r: seq<T>)
    ensures 0 <= i < |xs| ==> |r| == |xs| - 1
    ensures 0 <= i < |xs| ==> forall j :: 0 <= j < |r| ==> r[j] == (if j < i then xs[j] else xs[j + 1])
    ensures !(0 <= i < |xs|) ==> r == xs
  {
    if 0 <= i < |xs| then xs[..i] + xs[i + 1..] else xs
  }

  /** Removing the element just appended gives the original sequence back. */
  lemma RemoveAppended<T>(xs: seq<T>, y: T)
    ensures RemoveAt(xs + [y], |xs|) == xs
  {
    assert (xs + [y])[..|xs|] == xs;
  }

  // ---------------------------------------------------------------------
  // Stable sort by a real-valued key

  predicate SortedBy<T>(xs: seq<T>, key: T -> real) {
    forall i, j :: 0 <= i < j < |xs| ==> key(xs[i]) <= key(xs[j])
  }

  /** Puts `x` in front of the first element whose key is not smaller. */
  function Insert<T>(x: T, ys: seq<T>, key: T -> real): (r: seq<T>)
    ensures |r| == |ys| + 1
    ensures multiset(r) == multiset(ys) + multiset{x}
  {
    if |ys| == 0 then [x]
    else if key(x) <= key(ys[0]) then [x] + ys
    else
      assert ys == [ys[0]] + ys[1..];
      [ys[0]] + Insert(x, ys[1..], key)
  }

  /** A bound below `x` and every element of `ys` stays below everything
      after the insertion. */
  lemma {:induction false} InsertLowerBound<T>(x: T, ys: seq<T>, key: T -> real, b: real)
    requires b <= key(x)
    requires forall j :: 0 <= j < |ys| ==> b <= key(ys[j])
    ensures forall j :: 0 <= j < |ys| + 1 ==> b <= key(Insert(x, ys, key)[j])
  {
    if |ys| > 0 && key(x) > key(ys[0]) {
      InsertLowerBound(x, ys[1..], key, b);
    }
  }

  /** Inserting into a sorted sequence keeps it sorted. */
  lemma {:induction false} InsertSorted<T>(x: T, ys: seq<T>, key: T -> real)
    requires SortedBy(ys, key)
    ensures SortedBy(Insert(x, ys, key), key)
  {
    if |ys| > 0 && key(x) > key(ys[0]) {
      var rest := Insert(x, ys[1..], key);
      InsertSorted(x, ys[1..], key);
      InsertLowerBound(x, ys[1..], key, key(ys[0]));
      var r := [ys[0]] + rest;
      forall i, j | 0 <= i < j < |r|
        ensures key(r[i]) <= key(r[j])
      {
        if i > 0 {
          assert r[i] == rest[i - 1] && r[j] == rest[j - 1];
        } else {
          assert r[j] == rest[j - 1];
        }
      }
    }
  }

  /** A stable sort: insertion sort, inserting each element in front of
      the later elements whose key is equal to its own. */
  function SortBy<T>(xs: seq<T>, key: T -> real): (r: seq<T>)
    ensures |r| == |xs|
    ensures multiset(r) == multiset(xs)
    ensures SortedBy(r, key)
  {
    if |xs| == 0 then []
    else
      assert xs == [xs[0]] + xs[1..];
      var rest := SortBy(xs[1..], key);
      InsertSorted(xs[0], rest, key);
      Insert(xs[0], rest, key)
  }

  /** The elements of `xs` whose key is `k`, in order. */
  function WithKey<T>(xs: seq<T>, key: T -> real, k: real): seq<T> {
    if |xs| == 0 then []
    else (if key(xs[0]) == k then [xs[0]] else []) + WithKey(xs[1..], key, k)
  }

  /** `WithKey` of a sequence with a known first element. */
  lemma WithKeyCons<T>(x: T, t: seq<T>, key: T -> real, k: real)
    ensures WithKey([x] + t, key, k) == (if key(x) == k then [x] else []) + WithKey(t, key, k)
  {
    assert ([x] + t)[1..] == t;
  }

  lemma {:induction false} InsertWithKey<T>(x: T, ys: seq<T>, key: T -> real, k: real)
    ensures WithKey(Insert(x, ys, key), key, k)
         == (if key(x) == k then [x] else []) + WithKey(ys, key, k)
  {
    if |ys| == 0 {
      WithKeyCons(x, [], key, k);
    } else if key(x) > key(ys[0]) {
      var y, t := ys[0], ys[1..];
      var rest := Insert(x, t, key);
      assert Insert(x, ys, key) == [y] + rest;
      assert ys == [y] + t;
      InsertWithKey(x, t, key, k);
      WithKeyCons(y, rest, key, k);
      WithKeyCons(y, t, key, k);
      if key(y) == k {
        assert key(x) != k;
        assert WithKey(rest, key, k) == WithKey(t, key, k);
      } else {
        assert WithKey([y] + rest, key, k) == WithKey(rest, key, k);
        assert WithKey(ys, key, k) == WithKey(t, key, k);
      }
    } else {
      WithKeyCons(x, ys, key, k);
    }
  }

  /** Stability: among elements with equal keys the sort keeps the input
      order. */
  lemma {:induction false} SortStable<T>(xs: seq<T>, key: T -> real, k: real)
    ensures WithKey(SortBy(xs, key), key, k) == WithKey(xs, key, k)
  {
    if |xs| > 0 {
      SortStable(xs[1..], key, k);
      InsertWithKey(xs[0], SortBy(xs[1..], key), key, k);
    }
  }

  /** No element has key `k`: nothing is selected. */
  lemma {:induction false} WithKeyAbsent<T>(xs: seq<T>, key: T -> real, k: real)
    requires forall i :: 0 <= i < |xs| ==> key(xs[i]) != k
    ensures WithKey(xs, key, k) == []
  {
    if |xs| > 0 {
      WithKeyAbsent(xs[1..], key, k);
    }
  }

  /** The tail of a sorted sequence is sorted. */
  lemma SortedTail<T>(s: seq<T>, key: T -> real)
    requires |s| > 0 && SortedBy(s, key)
    ensures SortedBy(s[1..], key)
  {
    assert forall i :: 0 <= i < |s| - 1 ==> s[1..][i] == s[i + 1];
  }

  /** The tail of a sorted two-key sequence is one too, and after a
      `hi` head it holds no `lo` key. */
  lemma TailTwoKeys<T>(s: seq<T>, key: T -> real, lo: real, hi: real)
    requires |s| > 0 && lo < hi
    requires SortedBy(s, key)
    requires forall i :: 0 <= i < |s| ==> key(s[i]) == lo || key(s[i]) == hi
    ensures SortedBy(s[1..], key)
    ensures forall i :: 0 <= i < |s| - 1 ==> key(s[1..][i]) == lo || key(s[1..][i]) == hi
    ensures key(s[0]) == hi ==> forall i :: 0 <= i < |s| - 1 ==> key(s[1..][i]) != lo
  {
    SortedTail(s, key);
    assert forall i :: 0 <= i < |s| - 1 ==> s[1..][i] == s[i + 1];
  }

  /** A sorted sequence whose keys are all `lo` or `hi` is its `lo`
      elements followed by its `hi` elements. */
  lemma {:induction false} SortedTwoKeys<T>(s: seq<T>, key: T -> real, lo: real, hi: real)
    requires lo < hi
    requires SortedBy(s, key)
    requires forall i :: 0 <= i < |s| ==> key(s[i]) == lo || key(s[i]) == hi
    ensures s == WithKey(s, key, lo) + WithKey(s, key, hi)
  {
    if |s| > 0 {
      var t := s[1..];
      assert s == [s[0]] + t;
      TailTwoKeys(s, key, lo, hi);
      SortedTwoKeys(t, key, lo, hi);
      WithKeyCons(s[0], t, key, lo);
      WithKeyCons(s[0], t, key, hi);
      if key(s[0]) == hi {
        WithKeyAbsent(t, key, lo);
        assert WithKey(s, key, lo) == [];
      } else {
        assert WithKey(s, key, hi) == WithKey(t, key, hi);
      }
    }
  }

  /** Sorting by a two-valued key puts the low-key elements first and the
      high-key ones after, each group in input order. */
  lemma SortTwoKeys<T>(xs: seq<T>, key: T -> real, lo: real, hi: real)
    requires lo < hi
    requires forall i :: 0 <= i < |xs| ==> key(xs[i]) == lo || key(xs[i]) == hi
    ensures SortBy(xs, key) == WithKey(xs, key, lo) + WithKey(xs, key, hi)
  {
    var s := SortBy(xs, key);
    forall i | 0 <= i < |s|
      ensures key(s[i]) == lo || key(s[i]) == hi
    {
      assert s[i] in multiset(s);
      assert s[i] in multiset(xs);
      var j :| 0 <= j < |xs| && xs[j] == s[i];
    }
    SortedTwoKeys(s, key, lo, hi);
    SortStable(xs, key, lo);
    SortStable(xs, key, hi);
  }
}

=== FILE: shopping_routes.dfy ===
/** The shopping-list routes: create, update and delete a list, toggle one
    item's `checked` flag, and move the checked items into the pantry. */
module ShoppingRoutes {
  import opened Js
  import opened Dates
  import opened Seqs
  import opened Store

  // ---------------------------------------------------------------------
  // POST /api/shopping

  /** An entry of the body's `items` array: a bare string or an object. */
  datatype ItemInput = Named(text: string) | Fields(ingredient: Value, quantity: Value, unit: Value)

  /** The body of a create request; `items` is `None` when it is absent or
      falsy (`items || []`). */
  datatype CreateBody = CreateBody(name: Value, items: Option<seq<ItemInput>>)

  /** One entry of `items.map(...)`:
      `{ ingredient: item.ingredient?.toLowerCase() || item, quantity:
      item.quantity || 1, unit: item.unit || "item", checked: false }`.
      `None` when `toLowerCase` is not a function of the ingredient (the
      map throws). */
  function NormaliseItem(input: ItemInput): (r: Option<ShoppingItem>)
    ensures r.None? <==> input.Fields? && !(input.ingredient.Undefined? || input.ingredient.Null? || input.ingredient.Str?)
    ensures r.Some? ==> !r.value.checked
    ensures r.Some? && input.Named? ==> r.value == ShoppingItem(Str(input.text), Num(1.0), Str("item"), false)
    ensures r.Some? && input.Fields? ==>
      && r.value.quantity == (if Truthy(input.quantity) then input.quantity else Num(1.0))
      && r.value.unit == (if Truthy(input.unit) then input.unit else Str("item"))
      && (input.ingredient.Str? && input.ingredient.s != "" ==> r.value.ingredient == Str(Lower(input.ingredient.s)))
      && (!(input.ingredient.Str? && input.ingredient.s != "") ==> r.value.ingredient == Object)
  {
    match input
    case Named(text) =>
      // a string has no `ingredient`, `quantity` or `unit` property
      Some(ShoppingItem(Str(text), Num(1.0), Str("item"), false))
    case Fields(ingredient, quantity, unit) =>
      var lowered: Option<Value> :=
        match ingredient
        case Undefined => Some(Undefined)
        case Null => Some(Undefined)
        case Str(s) => Some(Str(Lower(s)))
        case _ => None;
      if lowered.None? then None
      else Some(ShoppingItem(Or(lowered.value, Object), Or(quantity, Num(1.0)), Or(unit, Str("item")), false))
  }

  /** `items.map(...)`: one stored item per input, in order; `None` when
      any entry throws. */
  function NormaliseItems(inputs: seq<ItemInput>): (r: Option<seq<ShoppingItem>>)
    ensures r.Some? <==> forall i :: 0 <= i < |inputs| ==> NormaliseItem(inputs[i]).Some?
    ensures r.Some? ==> |r.value| == |inputs|
    ensures r.Some? ==> forall i :: 0 <= i < |inputs| ==> r.value[i] == NormaliseItem(inputs[i]).value
  {
    if |inputs| == 0 then Some([])
    else
      var head := NormaliseItem(inputs[0]);
      var rest := NormaliseItems(inputs[1..]);
      assert forall i :: 1 <= i < |inputs| ==> inputs[i] == inputs[1..][i - 1];
      if head.Some? && rest.Some? then Some([head.value] + rest.value) else None
  }

  /** Creates a shopping list for the caller. */
  function CreateList(db: Db, session: Session, body: CreateBody, now: int): (r: Reply)
    ensures r.status == 400 <==> !Truthy(body.name)
    ensures r.status == 500 <==> Truthy(body.name) && body.items.Some?
                                 && exists i :: 0 <= i < |body.items.value| && NormaliseItem(body.items.value[i]).None?
    ensures r.status == 201 || r.status == 400 || r.status == 500
    ensures r.status != 201 ==> r.db == db
    ensures r.status == 201 ==> |r.db.lists| == |db.lists| + 1
    ensures r.status == 201 ==>
      var list := r.db.lists[|db.lists|];
      var inputs := if body.items.Some? then body.items.value else [];
      && r.db == db.(lists := db.lists + [list])
      && (forall i :: 0 <= i < |db.lists| ==> db.lists[i].id != list.id)
      && list.owner == UserId(session.userId) && list.name == body.name && list.createdAt == now
      && |list.items| == |inputs|
      && (forall i :: 0 <= i < |inputs| ==> NormaliseItem(inputs[i]).Some? && list.items[i] == NormaliseItem(inputs[i]).value)
      && (forall i :: 0 <= i < |list.items| ==> !list.items[i].checked)
  {
    if !Truthy(body.name) then Reply(400, db)
    else
      var inputs := if body.items.Some? then body.items.value else [];
      match NormaliseItems(inputs)
      case None => Reply(500, db)
      case Some(items) =>
        var list := ShoppingList(NextId(db.lists, ListId), UserId(session.userId), body.name, items, now);
        Reply(201, db.(lists := db.lists + [list]))
  }

  // ---------------------------------------------------------------------
  // Owner-scoped lookup

  /** `findOne({ _id, userId })` on the lists. */
  function OwnedList(lists: seq<ShoppingList>, session: Session, id: nat): (r: Option<nat>)
    ensures r.Some? ==> r.value < |lists| && lists[r.value].id == id
                        && lists[r.value].owner == UserId(session.userId)
    ensures r.None? <==> forall i :: 0 <= i < |lists| ==>
                           !(lists[i].id == id && lists[i].owner == UserId(session.userId))
  {
    FirstWhere(lists, (l: ShoppingList) => l.id == id && l.owner == UserId(session.userId))
  }

  // ---------------------------------------------------------------------
  // PUT /api/shopping/:id

  /** `Undefined` / `None` mark the fields the body leaves out. */
  datatype ListPatch = ListPatch(name: Value, items: Option<seq<ShoppingItem>>)

  /** Updates the caller's list: sets `name` and/or `items` when given. */
  function UpdateList(db: Db, session: Session, id: IdParam, patch: ListPatch): (r: Reply)
    ensures r.status == 500 <==> id.Malformed?
    ensures r.status == 404 <==> id.ObjectId? && OwnedList(db.lists, session, id.n).None?
    ensures r.status == 200 || r.status == 404 || r.status == 500
    ensures r.status != 200 ==> r.db == db
    ensures r.status == 200 ==>
      var k := OwnedList(db.lists, session, id.n).value;
      && |r.db.lists| == |db.lists|
      && r.db == db.(lists := r.db.lists)
      && (forall i :: 0 <= i < |db.lists| && i != k ==> r.db.lists[i] == db.lists[i])
      && r.db.lists[k].id == db.lists[k].id && r.db.lists[k].owner == db.lists[k].owner
      && r.db.lists[k].createdAt == db.lists[k].createdAt
      && r.db.lists[k].name == (if patch.name.Undefined? then db.lists[k].name else patch.name)
      && r.db.lists[k].items == (if patch.items.None? then db.lists[k].items else patch.items.value)
  {
    if id.Malformed? then Reply(500, db)
    else match OwnedList(db.lists, session, id.n)
      case None => Reply(404, db)
      case Some(k) =>
        var l := db.lists[k];
        var l' := l.(name := if patch.name.Undefined? then l.name else patch.name,
                     items := if patch.items.None? then l.items else patch.items.value);
        Reply(200, db.(lists := db.lists[k := l']))
  }

  // ---------------------------------------------------------------------
  // DELETE /api/shopping/:id

  function DeleteList(db: Db, session: Session, id: IdParam): (r: Reply)
    ensures r.status == 500 <==> id.Malformed?
    ensures r.status == 404 <==> id.ObjectId? && OwnedList(db.lists, session, id.n).None?
    ensures r.status == 200 || r.status == 404 || r.status == 500
    ensures r.status != 200 ==> r.db == db
    ensures r.status == 200 ==>
      var k := OwnedList(db.lists, session, id.n).value;
      r.db == db.(lists := db.lists[..k] + db.lists[k + 1..])
  {
    if id.Malformed? then Reply(500, db)
    else match OwnedList(db.lists, session, id.n)
      case None => Reply(404, db)
      case Some(k) => Reply(200, db.(lists := RemoveAt(db.lists, k)))
  }

  /** Deleting the list just created, by its id, restores the lists. */
  lemma CreateThenDelete(db: Db, session: Session, body: CreateBody, now: int)
    requires CreateList(db, session, body, now).status == 201
    ensures var created := CreateList(db, session, body, now).db;
            var list := created.lists[|db.lists|];
            DeleteList(created, session, ObjectId(list.id)) == Reply(200, db)
  {
    var created := CreateList(db, session, body, now).db;
    var list := created.lists[|db.lists|];
    var k := OwnedList(created.lists, session, list.id);
    assert k == Some(|db.lists|) by {
      assert forall i :: 0 <= i < |db.lists| ==> created.lists[i] == db.lists[i];
    }
    RemoveAppended(db.lists, list);
  }

  // ---------------------------------------------------------------------
  // POST /api/shopping/:id/check/:itemIndex

  /** `parseInt(req.params.itemIndex)`: an integer or NaN. */
  datatype IndexParam = Index(i: int) | NotANumber

  datatype ToggleReply = ToggleReply(status: int, db: Db, checked: Option<bool>)

  /** Flips `checked` of the item at `idx`, leaving everything else alone. */
  function FlipAt(items: seq<ShoppingItem>, idx: nat): (r: seq<ShoppingItem>)
    requires idx < |items|
    ensures |r| == |items|
    ensures r[idx] == items[idx].(checked := !items[idx].checked)
    ensures forall i :: 0 <= i < |items| && i != idx ==> r[i] == items[i]
  {
    items[idx := items[idx].(checked := !items[idx].checked)]
  }

  /** Toggles one item of the caller's list. A NaN index passes the bounds
      test (every comparison with NaN is false) and then reading
      `updatedItems[NaN].checked` throws. */
  function ToggleItem(db: Db, session: Session, id: IdParam, idx: IndexParam): (r: ToggleReply)
    ensures r.status == 404 <==> id.ObjectId? && OwnedList(db.lists, session, id.n).None?
    ensures r.status == 400 <==> id.ObjectId? && OwnedList(db.lists, session, id.n).Some? && idx.Index?
                                 && !(0 <= idx.i < |db.lists[OwnedList(db.lists, session, id.n).value].items|)
    ensures r.status == 500 <==> id.Malformed? || (OwnedList(db.lists, session, id.n).Some? && idx.NotANumber?)
    ensures r.status == 200 || r.status == 400 || r.status == 404 || r.status == 500
    ensures r.status != 200 ==> r.db == db && r.checked.None?
    ensures r.status == 200 ==>
      var k := OwnedList(db.lists, session, id.n).value;
      var old_ := db.lists[k].items[idx.i];
      && r.db == db.(lists := db.lists[k := db.lists[k].(items := FlipAt(db.lists[k].items, idx.i))])
      && r.checked == Some(!old_.checked)
  {
    if id.Malformed? then ToggleReply(500, db, None)
    else match OwnedList(db.lists, session, id.n)
      case None => ToggleReply(404, db, None)
      case Some(k) =>
        var items := db.lists[k].items;
        match idx
        case NotANumber => ToggleReply(500, db, None)
        case Index(i) =>
          if i < 0 || i >= |items| then ToggleReply(400, db, None)
          else
            var updated := FlipAt(items, i);
            ToggleReply(200, db.(lists := db.lists[k := db.lists[k].(items := updated)]), Some(updated[i].checked))
  }

  /** Toggling the same item twice restores the database. */
  lemma ToggleTwiceRestores(db: Db, session: Session, id: IdParam, i: int)
    requires ToggleItem(db, session, id, Index(i)).status == 200
    ensures var once := ToggleItem(db, session, id, Index(i)).db;
            var twice := ToggleItem(once, session, id, Index(i));
            twice.status == 200 && twice.db == db
  {
    var once := ToggleItem(db, session, id, Index(i)).db;
    var k := OwnedList(db.lists, session, id.n).value;
    assert forall j :: 0 <= j < |once.lists| ==> once.lists[j].id == db.lists[j].id && once.lists[j].owner == db.lists[j].owner;
    assert OwnedList(once.lists, session, id.n) == Some(k);
    assert FlipAt(FlipAt(db.lists[k].items, i), i) == db.lists[k].items;
    assert db.lists[k := db.lists[k]] == db.lists;
  }

  // ---------------------------------------------------------------------
  // POST /api/shopping/:id/move-to-pantry

  datatype MoveReply = MoveReply(status: int, db: Db, moved: nat)

  function IsChecked(item: ShoppingItem): bool { item.checked }
  function IsUnchecked(item: ShoppingItem): bool { !item.checked }

  /** The pantry documents inserted for the checked items, in order, with
      ids counting up from `nextId`. */
  function MovedItems(checked: seq<ShoppingItem>, catalogue: seq<CatalogueEntry>, session: Session,
                      nextId: nat, now: int): (r: seq<PantryItem>)
    ensures |r| == |checked|
    ensures forall i :: 0 <= i < |checked| ==>
      r[i] == PantryItem(nextId + i, Username(session.username), checked[i].ingredient,
                         checked[i].quantity, checked[i].unit, now,
                         CatalogueExpiryOf(catalogue, checked[i].ingredient))
  {
    if |checked| == 0 then []
    else
      [PantryItem(nextId, Username(session.username), checked[0].ingredient, checked[0].quantity,
                  checked[0].unit, now, CatalogueExpiryOf(catalogue, checked[0].ingredient))]
      + MovedItems(checked[1..], catalogue, session, nextId + 1, now)
  }

  /** The purchase-history documents logged for the checked items. */
  function MovedPurchases(checked: seq<ShoppingItem>, session: Session, now: int): (r: seq<Purchase>)
    ensures |r| == |checked|
    ensures forall i :: 0 <= i < |checked| ==>
      r[i] == Purchase(Username(session.username), checked[i].ingredient, now)
  {
    seq(|checked|, i requires 0 <= i < |checked| => Purchase(Username(session.username), checked[i].ingredient, now))
  }

  /** Moves the checked items of the caller's list into the pantry; the
      list keeps its unchecked items. */
  function MoveToPantry(db: Db, session: Session, id: IdParam, now: int): (r: MoveReply)
    ensures r.status == 500 <==> id.Malformed?
    ensures r.status == 404 <==> id.ObjectId? && OwnedList(db.lists, session, id.n).None?
    ensures r.status == 200 || r.status == 404 || r.status == 500
    ensures r.status != 200 ==> r.db == db && r.moved == 0
    ensures r.status == 200 ==>
      var k := OwnedList(db.lists, session, id.n).value;
      var items := db.lists[k].items;
      var checked := Filter(items, IsChecked);
      var remaining := Filter(items, IsUnchecked);
      && r.moved == |checked|
      && r.moved + |remaining| == |items|
      && (r.moved == 0 ==> r.db == db)
      && (r.moved > 0 ==>
           && r.db.catalogue == db.catalogue
           && r.db.pantry == db.pantry + MovedItems(checked, db.catalogue, session, NextId(db.pantry, ItemId), now)
           && r.db.history == db.history + MovedPurchases(checked, session, now)
           && |r.db.lists| == |db.lists|
           && (forall i :: 0 <= i < |db.lists| && i != k ==> r.db.lists[i] == db.lists[i])
           && r.db.lists[k] == db.lists[k].(items := remaining))
  {
    if id.Malformed? then MoveReply(500, db, 0)
    else match OwnedList(db.lists, session, id.n)
      case None => MoveReply(404, db, 0)
      case Some(k) =>
        var items := db.lists[k].items;
        var checked := Filter(items, IsChecked);
        FilterPartition(items, IsChecked, IsUnchecked);
        if |checked| == 0 then MoveReply(200, db, 0)
        else
          var remaining := Filter(items, IsUnchecked);
          MoveReply(200, Db(db.pantry + MovedItems(checked, db.catalogue, session, NextId(db.pantry, ItemId), now),
                            db.history + MovedPurchases(checked, session, now),
                            db.catalogue,
                            db.lists[k := db.lists[k].(items := remaining)]),
                    |checked|)
  }

  /** After a move no checked item is left in the list, the items left
      are exactly the unchecked ones in their order, and every moved item
      is new to the pantry. */
  lemma MoveLeavesNoChecked(db: Db, session: Session, id: IdParam, now: int)
    requires MoveToPantry(db, session, id, now).status == 200
    ensures var k := OwnedList(db.lists, session, id.n).value;
            var after := MoveToPantry(db, session, id, now).db.lists[k].items;
            forall i :: 0 <= i < |after| ==> !after[i].checked
  {
    var k := OwnedList(db.lists, session, id.n).value;
    var items := db.lists[k].items;
    if |Filter(items, IsChecked)| == 0 {
      FilterNone(items, IsChecked);
    }
  }

  /** The inserted pantry documents take ids no document had before. */
  lemma MovedIdsFresh(db: Db, session: Session, id: IdParam, now: int)
    requires MoveToPantry(db, session, id, now).status == 200
    ensures var r := MoveToPantry(db, session, id, now);
            forall i, j :: 0 <= i < |db.pantry| <= j < |r.db.pantry| ==> r.db.pantry[i].id != r.db.pantry[j].id
  {
  }
}

=== FILE: shopping_view.dfy ===
/** The shopping-list page: the figures and the item order a list card
    shows, the item arrays the page sends when an item is added or removed,
    and the create request built from a recipe's missing ingredients. */
module ShoppingView {
  import opened Js
  import opened Text
  import opened Seqs
  import opened Store
  import opened ShoppingRoutes

  // ---------------------------------------------------------------------
  // renderListCard

  /** A displayed item with its index in `list.items`, which the toggle
      and remove buttons send back. */
  datatype Row = Row(item: ShoppingItem, originalIdx: nat)

  /** `items.map((item, idx) => ({ ...item, originalIdx: idx }))` */
  function Rows(items: seq<ShoppingItem>): (r: seq<Row>)
    ensures |r| == |items|
    ensures forall i :: 0 <= i < |items| ==> r[i].item == items[i] && r[i].originalIdx == i
  {
    seq(|items|, i requires 0 <= i < |items| => Row(items[i], i))
  }

  /** The comparator `a.checked - b.checked` compares the flags as 0 and 1. */
  function CheckedKey(row: Row): real {
    if row.item.checked then 1.0 else 0.0
  }

  /** What a list card shows: `checked/total`, the progress bar's width in
      percent, the items in display order, and whether the "move checked
      to pantry" button is present. */
  datatype Card = Card(total: nat, checked: nat, progress: real, rows: seq<Row>, showMove: bool)

  /** `total > 0 ? (checked / total) * 100 : 0` */
  function Progress(checked: nat, total: nat): (r: real)
    requires checked <= total
    ensures 0.0 <= r <= 100.0
    ensures total == 0 ==> r == 0.0
    ensures total > 0 ==> r * total as real == checked as real * 100.0
    ensures r == 100.0 <==> total > 0 && checked == total
  {
    if total > 0 then (checked as real / total as real) * 100.0 else 0.0
  }

  /** The items in display order: `sort((a, b) => a.checked - b.checked)`
      on the indexed items. */
  function DisplayOrder(items: seq<ShoppingItem>): (r: seq<Row>)
    ensures |r| == |items|
    ensures multiset(r) == multiset(Rows(items))
    ensures SortedBy(r, CheckedKey)
    ensures forall j :: 0 <= j < |r| ==> r[j].originalIdx < |items| && items[r[j].originalIdx] == r[j].item
  {
    var rows := SortBy(Rows(items), CheckedKey);
    assert forall j :: 0 <= j < |rows| ==> rows[j] in multiset(Rows(items));
    rows
  }

  function ListCard(items: seq<ShoppingItem>): (r: Card)
    ensures r.total == |items|
    ensures r.checked + |Filter(items, IsUnchecked)| == r.total
    ensures r.checked <= r.total
    ensures r.progress == Progress(r.checked, r.total)
    ensures r.showMove <==> exists i :: 0 <= i < |items| && items[i].checked
    ensures r.rows == DisplayOrder(items)
  {
    var checked := |Filter(items, IsChecked)|;
    FilterPartition(items, IsChecked, IsUnchecked);
    FilterNone(items, IsChecked);
    Card(|items|, checked, Progress(checked, |items|), DisplayOrder(items), checked > 0)
  }

  /** The display order lists the unchecked items, then the checked ones,
      each group in the order of `list.items`. */
  lemma UncheckedFirst(items: seq<ShoppingItem>)
    ensures DisplayOrder(items)
         == WithKey(Rows(items), CheckedKey, 0.0) + WithKey(Rows(items), CheckedKey, 1.0)
  {
    SortTwoKeys(Rows(items), CheckedKey, 0.0, 1.0);
  }

  // ---------------------------------------------------------------------
  // The add-item form and removeShoppingItem

  /** `shoppingLists.find((l) => l._id === listId)`, as an index. */
  function FindList(lists: seq<ShoppingList>, listId: nat): (r: Option<nat>)
    ensures r.Some? ==> r.value < |lists| && lists[r.value].id == listId
    ensures r.Some? ==> forall j :: 0 <= j < r.value ==> lists[j].id != listId
    ensures r.None? <==> forall j :: 0 <= j < |lists| ==> lists[j].id != listId
  {
    FirstWhere(lists, (l: ShoppingList) => l.id == listId)
  }

  /** `{ ingredient: ingredient.toLowerCase(), quantity, unit, checked: false }`
      for the trimmed name and `parseFloat(qty) || 1`. */
  function NewItem(name: string, quantity: Value, unit: string): (r: ShoppingItem)
    requires name != ""
    ensures r.ingredient.Str? && Lower(r.ingredient.s) == Lower(name)
    ensures r.ingredient.s != "" && IsLowered(r.ingredient.s)
    ensures r.quantity == (if Truthy(quantity) then quantity else Num(1.0))
    ensures Truthy(r.quantity)
    ensures r.unit == Str(unit)
    ensures !r.checked
  {
    LowerNormalises(name);
    ShoppingItem(Str(Lower(name)), Or(quantity, Num(1.0)), Str(unit), false)
  }

  /** The submit handler of a card's add-item form: the `items` array it
      sends in the update, or `None` when it sends nothing. `quantity` is
      what `parseFloat` made of the quantity field. */
  function AddItemFromForm(lists: seq<ShoppingList>, listId: nat, rawName: string,
                           quantity: Value, unit: string): (r: Option<seq<ShoppingItem>>)
    ensures r.None? <==> AllSpace(rawName) || FindList(lists, listId).None?
    ensures r.Some? ==>
      var items := lists[FindList(lists, listId).value].items;
      && |r.value| == |items| + 1
      && r.value[..|items|] == items
      && r.value[|items|] == NewItem(Trim(rawName), quantity, unit)
  {
    var name := Trim(rawName);
    if name == "" then None
    else match FindList(lists, listId)
      case None => None
      case Some(k) =>
        var items := lists[k].items;
        var added := NewItem(name, quantity, unit);
        assert (items + [added])[..|items|] == items;
        Some(items + [added])
  }

  /** `window.removeShoppingItem`: the `items` array it sends, or `None`
      when the list is not on the page. */
  function RemoveItem(lists: seq<ShoppingList>, listId: nat, idx: int): (r: Option<seq<ShoppingItem>>)
    ensures r.None? <==> FindList(lists, listId).None?
    ensures r.Some? ==>
      var items := lists[FindList(lists, listId).value].items;
      && (0 <= idx < |items| ==>
            && |r.value| == |items| - 1
            && (forall j :: 0 <= j < idx ==> r.value[j] == items[j])
            && (forall j :: idx < j < |items| ==> r.value[j - 1] == items[j]))
      && (!(0 <= idx < |items|) ==> r.value == items)
  {
    match FindList(lists, listId)
    case None => None
    case Some(k) => Some(RemoveAt(lists[k].items, idx))
  }

  /** Removing the item just added restores the list's items. */
  lemma AddThenRemove(lists: seq<ShoppingList>, listId: nat, rawName: string, quantity: Value, unit: string)
    requires AddItemFromForm(lists, listId, rawName, quantity, unit).Some?
    ensures var k := FindList(lists, listId).value;
            var items' := AddItemFromForm(lists, listId, rawName, quantity, unit).value;
            var lists' := lists[k := lists[k].(items := items')];
            RemoveItem(lists', listId, |lists[k].items|) == Some(lists[k].items)
  {
    var k := FindList(lists, listId).value;
    var items' := AddItemFromForm(lists, listId, rawName, quantity, unit).value;
    var lists' := lists[k := lists[k].(items := items')];
    assert forall j :: 0 <= j < |lists| ==> lists'[j].id == lists[j].id;
    assert FindList(lists', listId) == Some(k);
    assert items' == lists[k].items + [items'[|lists[k].items|]];
    RemoveAppended(lists[k].items, items'[|lists[k].items|]);
  }

  /** Shopping-list ids are distinct. */
  predicate DistinctIds(lists: seq<ShoppingList>) {
    forall i, j :: 0 <= i < j < |lists| ==> lists[i].id != lists[j].id
  }

  /** The array the page sends, stored by the update route, becomes the
      list's items: the old ones followed by the new one. */
  lemma AddedItemStored(db: Db, session: Session, listId: nat, rawName: string, quantity: Value, unit: string)
    requires DistinctIds(db.lists)
    requires OwnedList(db.lists, session, listId).Some?
    requires AddItemFromForm(db.lists, listId, rawName, quantity, unit).Some?
    ensures var k := OwnedList(db.lists, session, listId).value;
            var sent := AddItemFromForm(db.lists, listId, rawName, quantity, unit).value;
            var r := UpdateList(db, session, ObjectId(listId), ListPatch(Undefined, Some(sent)));
            && r.status == 200
            && r.db.lists[k].items[..|db.lists[k].items|] == db.lists[k].items
            && |r.db.lists[k].items| == |db.lists[k].items| + 1
  {
    var k := OwnedList(db.lists, session, listId).value;
    assert FindList(db.lists, listId) == Some(k);
  }

  // ---------------------------------------------------------------------
  // addMissingToList and the recipe page's confirm button

  /** `missing.map((ing) => ({ ingredient: ing, quantity: 1, unit: "item" }))` */
  function ItemsFor(missing: seq<string>): (r: seq<ItemInput>)
    ensures |r| == |missing|
    ensures forall i :: 0 <= i < |missing| ==> r[i] == Fields(Str(missing[i]), Num(1.0), Str("item"))
  {
    seq(|missing|, i requires 0 <= i < |missing| => Fields(Str(missing[i]), Num(1.0), Str("item")))
  }

  /** `window.addMissingToList`: the create request sent, or `None` when
      the prompt is cancelled (`null`) or answered with "". */
  function MissingListRequest(listName: Option<string>, missing: seq<string>): (r: Option<CreateBody>)
    ensures r.None? <==> listName.None? || listName.value == ""
    ensures r.Some? ==> r.value.name == Str(listName.value) && Truthy(r.value.name)
    ensures r.Some? ==> r.value.items == Some(ItemsFor(missing))
  {
    if listName.None? || listName.value == "" then None
    else Some(CreateBody(Str(listName.value), Some(ItemsFor(missing))))
  }

  /** A create request built from missing ingredients always succeeds and
      stores one unchecked item per ingredient, in order, with quantity 1
      and unit "item". */
  lemma MissingItemsCreate(db: Db, session: Session, body: CreateBody, missing: seq<string>, now: int)
    requires Truthy(body.name) && body.items == Some(ItemsFor(missing))
    ensures var r := CreateList(db, session, body, now);
            var list := r.db.lists[|db.lists|];
            && r.status == 201
            && |list.items| == |missing|
            && forall i :: 0 <= i < |missing| ==>
                 && list.items[i].quantity == Num(1.0)
                 && list.items[i].unit == Str("item")
                 && !list.items[i].checked
                 && (missing[i] != "" ==> list.items[i].ingredient == Str(Lower(missing[i])))
  {
    var inputs := ItemsFor(missing);
    assert forall i :: 0 <= i < |inputs| ==> NormaliseItem(inputs[i]).Some?;
  }
}

=== FILE: store.dfy ===
/** The document collections the routes read and write, as immutable
    records in sequences. A route takes the database state and returns the
    state after it, with the HTTP status it answers. */
module Store {
  import opened Js
  import opened Dates
  import opened Seqs

  /** Which session field a document was stamped with. The pantry routes
      stamp and query `userId`; move-to-pantry stamps `username` and the
      suggestions route queries `username`. */
  datatype Owner = UserId(id: string) | Username(name: string)

  /** The authenticated session of the caller. */
  datatype Session = Session(userId: string, username: string)

  /** A document of `pantry_items`. `id` stands for the `_id` ObjectId. */
  datatype PantryItem = PantryItem(
    id: nat,
    owner: Owner,
    ingredient: Value,
    quantity: Value,
    unit: Value,
    dateAdded: int,
    expiration: Expiry)

  /** A document of `purchase_history`. */
  datatype Purchase = Purchase(owner: Owner, ingredient: Value, dateAdded: int)

  /** A document of `all_possible_ingredients`, the ingredient catalogue. */
  datatype CatalogueEntry = CatalogueEntry(ingredient: string, dateAdded: int, expiration: Expiry)

  /** One entry of a shopping list's `items` array. */
  datatype ShoppingItem = ShoppingItem(ingredient: Value, quantity: Value, unit: Value, checked: bool)

  /** A document of `shopping_lists`. */
  datatype ShoppingList = ShoppingList(id: nat, owner: Owner, name: Value, items: seq<ShoppingItem>, createdAt: int)

  datatype Db = Db(
    pantry: seq<PantryItem>,
    history: seq<Purchase>,
    catalogue: seq<CatalogueEntry>,
    lists: seq<ShoppingList>)

  /** The `:id` route parameter: `new ObjectId(...)` either reads it or
      throws on a malformed one. */
  datatype IdParam = ObjectId(n: nat) | Malformed

  /** A route's answer: the HTTP status and the database afterwards. */
  datatype Reply = Reply(status: int, db: Db)

  function ItemId(item: PantryItem): nat { item.id }

  function ListId(list: ShoppingList): nat { list.id }

  /** `_id` of a freshly inserted document: larger than every id in use
      in its collection, so distinct from all of them. */
  function NextId<T>(docs: seq<T>, id: T -> nat): (r: nat)
    ensures forall i :: 0 <= i < |docs| ==> id(docs[i]) < r
  {
    if |docs| == 0 then 0
    else
      var rest := NextId(docs[1..], id);
      assert forall i :: 1 <= i < |docs| ==> docs[i] == docs[1..][i - 1];
      if id(docs[0]) + 1 > rest then id(docs[0]) + 1 else rest
  }

  /** `findOne({ ingredient: name })` on the catalogue, then
      `found?.expiration_date || null`. */
  function CatalogueExpiry(catalogue: seq<CatalogueEntry>, name: string): (r: Expiry)
    ensures (forall i :: 0 <= i < |catalogue| ==> catalogue[i].ingredient != name) ==> r == NoDate
    ensures forall i :: 0 <= i < |catalogue| && catalogue[i].ingredient == name
                        && (forall j :: 0 <= j < i ==> catalogue[j].ingredient != name)
                        ==> r == catalogue[i].expiration
  {
    match FirstWhere(catalogue, (e: CatalogueEntry) => e.ingredient == name)
    case None => NoDate
    case Some(k) => catalogue[k].expiration
  }

  /** The same lookup keyed by a stored value: only a string can equal a
      catalogue name. */
  function CatalogueExpiryOf(catalogue: seq<CatalogueEntry>, ingredient: Value): (r: Expiry)
    ensures !ingredient.Str? ==> r == NoDate
  {
    if ingredient.Str? then CatalogueExpiry(catalogue, ingredient.s) else NoDate
  }
}

=== FILE: suggestions.dfy ===
/** GET /api/recipes/suggestions: every catalogue recipe scored against
    the pantry, flagged when it uses an ingredient about to expire, and
    ordered expiring-first, then by score. */
module Suggestions {
  import opened Js
  import opened Dates
  import opened Seqs
  import opened Store

  /** A recipe's `Instructions` or `instructions` field: missing, a text
      block, or an array of steps. */
  datatype InstructionField = Missing | Text(text: string) | Steps(steps: seq<string>)

  /** A document of `all_possible_recipes`. */
  datatype Recipe = Recipe(
    name: string,
    description: string,
    ingredients: seq<string>,
    hours: real,
    prepRequired: bool,
    instructionsUpper: InstructionField,
    instructionsLower: InstructionField)

  /** `have.length / recipeIngredients.length`; `0 / 0` is NaN. */
  datatype Score = Ratio(value: real) | NotANumber

  /** `{ ...recipe, have, missing, score, usesExpiring }` */
  datatype Scored = Scored(recipe: Recipe, have: seq<string>, missing: seq<string>, score: Score, usesExpiring: bool)

  /** The window of the `usesExpiring` flag. */
  const ExpiringSoonDays: nat := 3

  /** `pantryItems.map((item) => item.ingredient.toLowerCase())`; `None`
      when some stored ingredient is not a string (the call throws). */
  function PantryNames(items: seq<PantryItem>): (r: Option<seq<string>>)
    ensures r.Some? <==> forall i :: 0 <= i < |items| ==> items[i].ingredient.Str?
    ensures r.Some? ==> |r.value| == |items|
    ensures r.Some? ==> forall i :: 0 <= i < |items| ==> r.value[i] == Lower(items[i].ingredient.s)
  {
    if |items| == 0 then Some([])
    else
      var rest := PantryNames(items[1..]);
      assert forall i :: 1 <= i < |items| ==> items[i] == items[1..][i - 1];
      if items[0].ingredient.Str? && rest.Some? then Some([Lower(items[0].ingredient.s)] + rest.value)
      else None
  }

  function LowerAll(xs: seq<string>): (r: seq<string>)
    ensures |r| == |xs|
    ensures forall i :: 0 <= i < |xs| ==> r[i] == Lower(xs[i])
  {
    seq(|xs|, i requires 0 <= i < |xs| => Lower(xs[i]))
  }

  /** `recipeIngredients.filter((i) => pantryIngredients.includes(i))` */
  function Have(ingredients: seq<string>, pantry: seq<string>): seq<string> {
    Filter(ingredients, (i: string) => i in pantry)
  }

  /** `recipeIngredients.filter((i) => !pantryIngredients.includes(i))` */
  function MissingOf(ingredients: seq<string>, pantry: seq<string>): seq<string> {
    Filter(ingredients, (i: string) => i !in pantry)
  }

  /** Have and missing split the ingredient list: every ingredient,
      duplicates included, lands in exactly one of them, `have` holds only
      pantry names and `missing` none. */
  lemma HaveMissingPartition(ingredients: seq<string>, pantry: seq<string>)
    ensures |Have(ingredients, pantry)| + |MissingOf(ingredients, pantry)| == |ingredients|
    ensures multiset(Have(ingredients, pantry)) + multiset(MissingOf(ingredients, pantry)) == multiset(ingredients)
    ensures forall i :: 0 <= i < |Have(ingredients, pantry)| ==> Have(ingredients, pantry)[i] in pantry
    ensures forall i :: 0 <= i < |MissingOf(ingredients, pantry)| ==> MissingOf(ingredients, pantry)[i] !in pantry
    ensures forall i :: 0 <= i < |ingredients| ==>
              (ingredients[i] in Have(ingredients, pantry) <==> ingredients[i] !in MissingOf(ingredients, pantry))
  {
    FilterPartition(ingredients, (i: string) => i in pantry, (i: string) => i !in pantry);
  }

  /** `have.length / recipeIngredients.length` as a fraction of the
      whole: in [0, 1], 1 exactly when everything is held and 0 exactly
      when nothing is; NaN for an empty list. */
  function ScoreOf(held: nat, total: nat): (r: Score)
    requires held <= total
    ensures r.NotANumber? <==> total == 0
    ensures r.Ratio? ==> 0.0 <= r.value <= 1.0
    ensures r.Ratio? ==> (r.value == 1.0 <==> held == total)
    ensures r.Ratio? ==> (r.value == 0.0 <==> held == 0)
    ensures r.Ratio? ==> r.value * total as real == held as real
  {
    if total == 0 then NotANumber
    else
      var v := held as real / total as real;
      assert v * total as real == held as real;
      Ratio(v)
  }

  /** `pantryItems.some(...)`: some pantry item with a present, readable
      date at or before `deadline` whose lower-cased ingredient is held. */
  function AnyExpiringHeld(items: seq<PantryItem>, names: seq<string>, have: seq<string>, deadline: int): (r: bool)
    requires |names| == |items|
    ensures r <==> exists k :: 0 <= k < |items| && items[k].expiration != NoDate
                              && OnOrBefore(items[k].expiration, deadline) && names[k] in have
  {
    if |items| == 0 then false
    else if items[0].expiration != NoDate && OnOrBefore(items[0].expiration, deadline) && names[0] in have then true
    else
      var rest := AnyExpiringHeld(items[1..], names[1..], have, deadline);
      assert rest ==> exists k :: 0 <= k < |items| && items[k].expiration != NoDate
                                 && OnOrBefore(items[k].expiration, deadline) && names[k] in have by {
        if rest {
          var k :| 0 <= k < |items| - 1 && items[1..][k].expiration != NoDate
                   && OnOrBefore(items[1..][k].expiration, deadline) && names[1..][k] in have;
          assert items[k + 1] == items[1..][k] && names[k + 1] == names[1..][k];
        }
      }
      assert (exists k :: 0 <= k < |items| && items[k].expiration != NoDate
                         && OnOrBefore(items[k].expiration, deadline) && names[k] in have) ==> rest by {
        forall k | 0 <= k < |items| && items[k].expiration != NoDate
                   && OnOrBefore(items[k].expiration, deadline) && names[k] in have
          ensures rest
        {
          assert k != 0;
          assert items[1..][k - 1] == items[k] && names[1..][k - 1] == names[k];
        }
      }
      rest
  }

  /** Scores one recipe against the lower-cased pantry names. */
  function ScoreRecipe(recipe: Recipe, items: seq<PantryItem>, names: seq<string>, now: int): (r: Scored)
    requires |names| == |items|
    ensures r.recipe == recipe
    ensures |r.have| + |r.missing| == |recipe.ingredients|
    ensures forall i :: 0 <= i < |r.have| ==> r.have[i] in names
    ensures forall i :: 0 <= i < |r.missing| ==> r.missing[i] !in names
    ensures multiset(r.have) + multiset(r.missing) == multiset(LowerAll(recipe.ingredients))
    ensures r.score.NotANumber? <==> |recipe.ingredients| == 0
    ensures r.score.Ratio? ==> 0.0 <= r.score.value <= 1.0
    ensures r.score.Ratio? ==> (r.score.value == 1.0 <==> r.missing == [])
    ensures r.score.Ratio? ==> (r.score.value == 0.0 <==> r.have == [])
    ensures r.score == ScoreOf(|r.have|, |recipe.ingredients|)
    ensures r.usesExpiring <==> exists k :: 0 <= k < |items| && items[k].expiration != NoDate
                                  && OnOrBefore(items[k].expiration, now + ExpiringSoonDays * DayMs)
                                  && names[k] in r.have
  {
    var ings := LowerAll(recipe.ingredients);
    var have := Have(ings, names);
    var missing := MissingOf(ings, names);
    HaveMissingPartition(ings, names);
    var usesExpiring := AnyExpiringHeld(items, names, have, now + ExpiringSoonDays * DayMs);
    Scored(recipe, have, missing, ScoreOf(|have|, |ings|), usesExpiring)
  }

  /** `recipes.map(...)` */
  function ScoreAll(recipes: seq<Recipe>, items: seq<PantryItem>, names: seq<string>, now: int): (r: seq<Scored>)
    requires |names| == |items|
    ensures |r| == |recipes|
    ensures forall i :: 0 <= i < |recipes| ==> r[i] == ScoreRecipe(recipes[i], items, names, now)
  {
    seq(|recipes|, i requires 0 <= i < |recipes| => ScoreRecipe(recipes[i], items, names, now))
  }

  // ---------------------------------------------------------------------
  // Ordering

  /** The comparator `(a, b) => ...` says `a` goes strictly before `b`. */
  predicate StrictlyBefore(a: Scored, b: Scored)
    requires a.score.Ratio? && b.score.Ratio?
  {
    (a.usesExpiring && !b.usesExpiring)
    || (a.usesExpiring == b.usesExpiring && a.score.value > b.score.value)
  }

  predicate NumericScores(scored: seq<Scored>) {
    forall i :: 0 <= i < |scored| ==> scored[i].score.Ratio? && 0.0 <= scored[i].score.value <= 1.0
  }

  /** A sort key whose ascending order is the comparator's order when
      scores lie in [0, 1]: expiring recipes take keys in [-1, 0], the
      others keys in [1, 2]. */
  function RankKey(s: Scored): real {
    var v := if s.score.Ratio? then s.score.value else 0.0;
    if s.usesExpiring then -v else 2.0 - v
  }

  /** `scored.sort(comparator)`, a stable sort. */
  function Rank(scored: seq<Scored>): (r: seq<Scored>)
    requires NumericScores(scored)
    ensures multiset(r) == multiset(scored)
    ensures NumericScores(r)
    ensures forall i, j :: 0 <= i < j < |r| ==> !StrictlyBefore(r[j], r[i])
    ensures forall i, j :: 0 <= i < j < |r| ==> (r[i].usesExpiring || !r[j].usesExpiring)
    ensures forall i, j :: 0 <= i < j < |r| && r[i].usesExpiring == r[j].usesExpiring
              ==> r[i].score.value >= r[j].score.value
  {
    var r := SortBy(scored, RankKey);
    forall i | 0 <= i < |r|
      ensures r[i].score.Ratio? && 0.0 <= r[i].score.value <= 1.0
    {
      assert r[i] in multiset(scored);
    }
    forall i, j | 0 <= i < j < |r|
      ensures !StrictlyBefore(r[j], r[i])
    {
      RankKeyMatchesComparator(r[j], r[i]);
    }
    r
  }

  /** Recipes the comparator ties keep their catalogue order. */
  lemma RankStable(scored: seq<Scored>, k: real)
    requires NumericScores(scored)
    ensures WithKey(Rank(scored), RankKey, k) == WithKey(scored, RankKey, k)
  {
    SortStable(scored, RankKey, k);
  }

  /** Two recipes share a rank key exactly when the comparator ties them. */
  lemma RankKeyMatchesComparator(a: Scored, b: Scored)
    requires a.score.Ratio? && 0.0 <= a.score.value <= 1.0
    requires b.score.Ratio? && 0.0 <= b.score.value <= 1.0
    ensures RankKey(a) < RankKey(b) <==> StrictlyBefore(a, b)
    ensures RankKey(a) == RankKey(b) <==> !StrictlyBefore(a, b) && !StrictlyBefore(b, a)
  {
  }

  // ---------------------------------------------------------------------
  // The route

  /** The response: a 500 when a pantry ingredient is not a string; an
      unspecified order (only the multiset of records is determined) when
      some recipe has no ingredients, since a NaN score makes the
      comparator inconsistent; otherwise the ranked list. */
  datatype Response = ServerError | Unordered(records: multiset<Scored>) | Ranked(list: seq<Scored>)

  predicate AllHaveIngredients(recipes: seq<Recipe>) {
    forall i :: 0 <= i < |recipes| ==> |recipes[i].ingredients| > 0
  }

  function Suggest(items: seq<PantryItem>, recipes: seq<Recipe>, now: int): (r: Response)
    ensures r.ServerError? <==> PantryNames(items).None?
    ensures r.Ranked? <==> PantryNames(items).Some? && AllHaveIngredients(recipes)
    ensures r.Ranked? ==>
      var scored := ScoreAll(recipes, items, PantryNames(items).value, now);
      && multiset(r.list) == multiset(scored)
      && NumericScores(r.list)
      && (forall i, j :: 0 <= i < j < |r.list| ==> (r.list[i].usesExpiring || !r.list[j].usesExpiring))
      && (forall i, j :: 0 <= i < j < |r.list| && r.list[i].usesExpiring == r.list[j].usesExpiring
            ==> r.list[i].score.value >= r.list[j].score.value)
    ensures r.Ranked? ==> r.list == Rank(ScoreAll(recipes, items, PantryNames(items).value, now))
    ensures r.Unordered? ==> r.records == multiset(ScoreAll(recipes, items, PantryNames(items).value, now))
  {
    match PantryNames(items)
    case None => ServerError
    case Some(names) =>
      var scored := ScoreAll(recipes, items, names, now);
      if AllHaveIngredients(recipes) then Ranked(Rank(scored))
      else Unordered(multiset(scored))
  }

  /** The ranked answer keeps catalogue order among the recipes the
      comparator ties. */
  lemma SuggestStable(items: seq<PantryItem>, recipes: seq<Recipe>, now: int, k: real)
    requires Suggest(items, recipes, now).Ranked?
    ensures var scored := ScoreAll(recipes, items, PantryNames(items).value, now);
            WithKey(Suggest(items, recipes, now).list, RankKey, k) == WithKey(scored, RankKey, k)
  {
    var scored := ScoreAll(recipes, items, PantryNames(items).value, now);
    RankStable(scored, k);
  }

  /** Each output record is a catalogue recipe with its own scoring fields:
      the records are exactly the scored recipes, one per recipe. */
  lemma SuggestKeepsRecipes(items: seq<PantryItem>, recipes: seq<Recipe>, now: int, i: nat)
    requires Suggest(items, recipes, now).Ranked?
    requires i < |recipes|
    ensures exists j :: 0 <= j < |Suggest(items, recipes, now).list|
                        && Suggest(items, recipes, now).list[j].recipe == recipes[i]
  {
    var names := PantryNames(items).value;
    var scored := ScoreAll(recipes, items, names, now);
    var list := Suggest(items, recipes, now).list;
    assert scored[i] in multiset(list);
    var j :| 0 <= j < |list| && list[j] == scored[i];
  }

  /** A single recipe with ingredients is answered on its own, scored. */
  lemma SingleRecipe(items: seq<PantryItem>, recipe: Recipe, now: int)
    requires PantryNames(items).Some? && |recipe.ingredients| > 0
    ensures Suggest(items, [recipe], now) == Ranked([ScoreRecipe(recipe, items, PantryNames(items).value, now)])
  {
    var x := ScoreRecipe(recipe, items, PantryNames(items).value, now);
    assert ScoreAll([recipe], items, PantryNames(items).value, now) == [x];
    var r := Rank([x]);
    assert multiset(r) == multiset{x};
    assert |r| == 1 && r[0] in multiset(r);
  }

  /** With an empty pantry nothing is held, nothing is flagged and every
      recipe with ingredients scores 0. */
  lemma EmptyPantry(recipe: Recipe, now: int)
    ensures var s := ScoreRecipe(recipe, [], [], now);
            s.have == [] && s.missing == LowerAll(recipe.ingredients) && !s.usesExpiring
            && (|recipe.ingredients| > 0 ==> s.score == Ratio(0.0))
  {
    var ings := LowerAll(recipe.ingredients);
    FilterAll(ings, (i: string) => i !in []);
    FilterNone(ings, (i: string) => i in []);
  }

  /** Matching ignores case: a pantry item spelt "Tomato" makes the recipe
      ingredient "tomato" (or "TOMATO") held, never missing. */
  lemma CaseInsensitiveMatch(recipe: Recipe, items: seq<PantryItem>, now: int, i: nat, k: nat)
    requires PantryNames(items).Some?
    requires i < |recipe.ingredients| && k < |items|
    requires Lower(items[k].ingredient.s) == Lower(recipe.ingredients[i])
    ensures var s := ScoreRecipe(recipe, items, PantryNames(items).value, now);
            Lower(recipe.ingredients[i]) in s.have && Lower(recipe.ingredients[i]) !in s.missing
  {
    var names := PantryNames(items).value;
    assert names[k] == Lower(recipe.ingredients[i]);
    var ings := LowerAll(recipe.ingredients);
    assert ings[i] == Lower(recipe.ingredients[i]);
  }

  /** An expired item (date before now) still counts as expiring when its
      ingredient is held; an undated or unreadable one never does. */
  lemma ExpiredStillCounts(recipe: Recipe, items: seq<PantryItem>, now: int, k: nat)
    requires PantryNames(items).Some?
    requires k < |items| && items[k].expiration.At? && items[k].expiration.ms < now
    requires PantryNames(items).value[k] in ScoreRecipe(recipe, items, PantryNames(items).value, now).have
    ensures ScoreRecipe(recipe, items, PantryNames(items).value, now).usesExpiring
  {
  }

  /** Scenario: pantry "tomato" with no date against [tomato, basil] gives
      have [tomato], missing [basil], score 0.5 and no flag. */
  lemma ScenarioHalfMatch(now: int)
    ensures var item := PantryItem(0, Username("u"), Str("tomato"), Num(1.0), Str("item"), now, NoDate);
            var recipe := Recipe("salad", "", ["tomato", "basil"], 1.0, false, Missing, Missing);
            var s := ScoreRecipe(recipe, [item], ["tomato"], now);
            s.have == ["tomato"] && s.missing == ["basil"] && s.score == Ratio(0.5) && !s.usesExpiring
  {
    var item := PantryItem(0, Username("u"), Str("tomato"), Num(1.0), Str("item"), now, NoDate);
    var recipe := Recipe("salad", "", ["tomato", "basil"], 1.0, false, Missing, Missing);
    TomatoBasil();
    HaveMissingPair("tomato", "basil", ["tomato"]);
    var s := ScoreRecipe(recipe, [item], ["tomato"], now);
    assert s.have == ["tomato"] && s.missing == ["basil"];
    assert s.score == ScoreOf(1, 2);
  }

  /** The names of the scenario are already lower-case and distinct. */
  lemma TomatoBasil()
    ensures LowerAll(["tomato", "basil"]) == ["tomato", "basil"]
    ensures "basil" !in ["tomato"]
  {
    LowerNormalises("tomato");
    LowerNormalises("basil");
    assert "basil"[0] != "tomato"[0];
  }

  /** `have` and `missing` of a two-ingredient recipe. */
  lemma HaveMissingPair(a: string, b: string, pantry: seq<string>)
    ensures Have([a, b], pantry) == (if a in pantry then [a] else []) + (if b in pantry then [b] else [])
    ensures MissingOf([a, b], pantry) == (if a in pantry then [] else [a]) + (if b in pantry then [] else [b])
  {
    assert [a, b][1..] == [b];
    assert [b][1..] == [];
    assert Have([b], pantry) == (if b in pantry then [b] else []);
    assert MissingOf([b], pantry) == (if b in pantry then [] else [b]);
  }
}

=== FILE: text.dfy ===
/** String operations the views use: `trim()`, `indexOf`, the
    `capitalize` helper, `split(" ")[0]` and `split(/\n+/).filter(Boolean)`. */
module Text {
  import opened Js

  // ---------------------------------------------------------------------
  // trim()

  /** The white-space characters `trim()` removes (ASCII subset). */
  predicate IsSpace(c: char) {
    c == ' ' || c == '\t' || c == '\n' || c == '\r' || c == '\U{000B}' || c == '\U{000C}'
  }

  predicate AllSpace(s: string) {
    forall i :: 0 <= i < |s| ==> IsSpace(s[i])
  }

  /** The first index at or after `i` that is not white space, or `|s|`. */
  function SkipSpaces(s: string, i: nat): (r: nat)
    requires i <= |s|
    ensures i <= r <= |s|
    ensures forall k :: i <= k < r ==> IsSpace(s[k])
    ensures r < |s| ==> !IsSpace(s[r])
    decreases |s| - i
  {
    if i < |s| && IsSpace(s[i]) then SkipSpaces(s, i + 1) else i
  }

  /** The end of `s[lo..j]` once its trailing white space is dropped. */
  function SkipSpacesBack(s: string, lo: nat, j: nat): (r: nat)
    requires lo <= j <= |s|
    ensures lo <= r <= j
    ensures forall k :: r <= k < j ==> IsSpace(s[k])
    ensures r > lo ==> !IsSpace(s[r - 1])
  {
    if j > lo && IsSpace(s[j - 1]) then SkipSpacesBack(s, lo, j - 1) else j
  }

  /** `s.trim()`: the result is a slice of `s` that neither starts nor ends
      with white space, and everything cut away is white space. */
  function Trim(s: string): (r: string)
    ensures exists a, b :: 0 <= a <= b <= |s| && r == s[a..b] && AllSpace(s[..a]) && AllSpace(s[b..])
    ensures r == "" || (!IsSpace(r[0]) && !IsSpace(r[|r| - 1]))
    ensures r == "" <==> AllSpace(s)
  {
    var a := SkipSpaces(s, 0);
    var b := SkipSpacesBack(s, a, |s|);
    assert AllSpace(s[..a]) && AllSpace(s[b..]);
    s[a..b]
  }

  // ---------------------------------------------------------------------
  // indexOf

  /** `q` occurs in `s` starting at index `i`. */
  predicate OccursAt(s: string, q: string, i: int) {
    0 <= i && i + |q| <= |s| && s[i..i + |q|] == q
  }

  /** `s.indexOf(q, k)`: the first occurrence at or after `k`. */
  function IndexOfFrom(s: string, q: string, k: nat): (r: Option<nat>)
    ensures r.Some? ==> k <= r.value && OccursAt(s, q, r.value)
    ensures r.Some? ==> forall j :: k <= j < r.value ==> !OccursAt(s, q, j)
    ensures r.None? ==> forall j :: k <= j ==> !OccursAt(s, q, j)
    decreases |s| - k
  {
    if k + |q| > |s| then None
    else if s[k..k + |q|] == q then Some(k)
    else IndexOfFrom(s, q, k + 1)
  }

  /** `s.indexOf(q)`, with `None` standing for -1. */
  function IndexOf(s: string, q: string): (r: Option<nat>)
    ensures r.Some? ==> OccursAt(s, q, r.value)
    ensures r.Some? ==> forall j :: 0 <= j < r.value ==> !OccursAt(s, q, j)
    ensures r.None? <==> forall j :: !OccursAt(s, q, j)
  {
    IndexOfFrom(s, q, 0)
  }

  // ---------------------------------------------------------------------
  // capitalize

  /** `str.charAt(0).toUpperCase() + str.slice(1)` */
  function Capitalize(s: string): string {
    if |s| == 0 then "" else [UpperChar(s[0])] + s[1..]
  }

  /** Capitalising changes only the case of the first character: the length
      is kept, every later character is kept, and the lower-cased text is
      the same before and after. */
  lemma CapitalizeOnlyFirst(s: string)
    ensures |Capitalize(s)| == |s|
    ensures |s| > 0 ==> Capitalize(s)[1..] == s[1..] && !IsLowerLetter(Capitalize(s)[0])
    ensures Lower(Capitalize(s)) == Lower(s)
    ensures Capitalize(Capitalize(s)) == Capitalize(s)
  {
    if |s| > 0 {
      var c := Capitalize(s);
      assert LowerChar(c[0]) == LowerChar(s[0]);
      assert forall i :: 0 <= i < |s| ==> Lower(c)[i] == Lower(s)[i];
    }
  }

  // ---------------------------------------------------------------------
  // split(" ")[0]

  /** The text before the first space (all of `s` when it has none). */
  function FirstWord(s: string): (r: string)
    ensures |r| <= |s| && r == s[..|r|]
    ensures forall i :: 0 <= i < |r| ==> r[i] != ' '
    ensures r == s || s[|r|] == ' '
  {
    if |s| == 0 || s[0] == ' ' then "" else [s[0]] + FirstWord(s[1..])
  }

  // ---------------------------------------------------------------------
  // split(/\n+/).filter(Boolean)

  predicate NoNewline(s: string) {
    forall i :: 0 <= i < |s| ==> s[i] != '\n'
  }

  /** A list of steps as the view shows them: no step is empty and none
      contains a newline. */
  predicate WellFormedSteps(steps: seq<string>) {
    forall k :: 0 <= k < |steps| ==> steps[k] != "" && NoNewline(steps[k])
  }

  function StripNewlines(s: string): (r: string)
    ensures NoNewline(r)
  {
    if |s| == 0 then ""
    else (if s[0] == '\n' then "" else [s[0]]) + StripNewlines(s[1..])
  }

  function Concat(steps: seq<string>): string {
    if |steps| == 0 then "" else steps[0] + Concat(steps[1..])
  }

  /** `steps.join("\n")` */
  function JoinLines(steps: seq<string>): string {
    if |steps| == 0 then ""
    else if |steps| == 1 then steps[0]
    else steps[0] + "\n" + JoinLines(steps[1..])
  }

  /** The pieces of `cur + s` between runs of newlines, empty pieces
      dropped; `cur` is the piece being accumulated. */
  function SplitFrom(s: string, cur: string): (r: seq<string>)
    requires NoNewline(cur)
    ensures WellFormedSteps(r)
    ensures Concat(r) == cur + StripNewlines(s)
  {
    if |s| == 0 then
      (if cur == "" then [] else [cur])
    else if s[0] == '\n' then
      var rest := SplitFrom(s[1..], "");
      assert cur != "" ==> Concat([cur] + rest) == cur + Concat(rest) by {
        assert ([cur] + rest)[1..] == rest;
      }
      assert StripNewlines(s) == StripNewlines(s[1..]) by {
        assert "" + StripNewlines(s[1..]) == StripNewlines(s[1..]);
      }
      assert cur == "" ==> cur + StripNewlines(s) == StripNewlines(s) && [] + rest == rest;
      (if cur == "" then [] else [cur]) + rest
    else
      assert cur + StripNewlines(s) == (cur + [s[0]]) + StripNewlines(s[1..]);
      SplitFrom(s[1..], cur + [s[0]])
  }

  /** `text.split(/\n+/).filter(Boolean)`: no piece is empty or holds a
      newline, and together the pieces hold exactly the non-newline
      characters of the text, in order. */
  function SplitSteps(text: string): (r: seq<string>)
    ensures WellFormedSteps(r)
    ensures Concat(r) == StripNewlines(text)
    ensures text != "" && NoNewline(text) ==> r == [text]
  {
    SplitSingleLine(text);
    SplitFrom(text, "")
  }

  /** A non-empty text without a newline is a single piece. */
  lemma SplitSingleLine(text: string)
    ensures text != "" && NoNewline(text) ==> SplitFrom(text, "") == [text]
  {
    if NoNewline(text) {
      SplitNoNewlinePrefix(text, "", "");
      assert text + "" == text;
      assert "" + text == text;
    }
  }

  /** Splitting accumulates up to the first newline and starts afresh
      after it. */
  lemma {:induction false} SplitFromNewline(a: string, b: string, cur: string)
    requires NoNewline(cur)
    ensures SplitFrom(a + "\n" + b, cur) == SplitFrom(a, cur) + SplitFrom(b, "")
    decreases |a|
  {
    var s := a + "\n" + b;
    if |a| == 0 {
      assert s == "\n" + b;
      assert s[1..] == b;
    } else {
      assert s[0] == a[0];
      assert s[1..] == a[1..] + "\n" + b;
      if a[0] == '\n' {
        SplitFromNewline(a[1..], b, "");
      } else {
        SplitFromNewline(a[1..], b, cur + [a[0]]);
      }
    }
  }

  /** A newline cuts the text: the steps of `a + "\n" + b` are the steps of
      `a` followed by those of `b`, so runs of newlines and trailing
      newlines add no step. */
  lemma SplitAtNewline(a: string, b: string)
    ensures SplitSteps(a + "\n" + b) == SplitSteps(a) + SplitSteps(b)
  {
    SplitFromNewline(a, b, "");
  }

  /** Blank lines and a trailing newline produce no step. */
  lemma SplitBlankLines(a: string, b: string)
    requires a != "" && NoNewline(a) && b != "" && NoNewline(b)
    ensures SplitSteps(a + "\n\n" + b) == [a, b]
    ensures SplitSteps(a + "\n") == [a]
  {
    SplitAtNewline(a, "\n" + b);
    assert a + "\n\n" + b == a + "\n" + ("\n" + b);
    SplitAtNewline("", b);
    assert "" + "\n" + b == "\n" + b;
    assert SplitSteps("") == [];
    SplitAtNewline(a, "");
    assert a + "\n" + "" == a + "\n";
  }

  lemma {:induction false} SplitNoNewlinePrefix(w: string, rest: string, cur: string)
    requires NoNewline(cur) && NoNewline(w)
    ensures SplitFrom(w + rest, cur) == SplitFrom(rest, cur + w)
    decreases |w|
  {
    if |w| > 0 {
      assert (w + rest)[1..] == w[1..] + rest;
      assert (cur + [w[0]]) + w[1..] == cur + w;
      SplitNoNewlinePrefix(w[1..], rest, cur + [w[0]]);
    } else {
      assert w + rest == rest;
      assert cur + w == cur;
    }
  }

  /** Joining well-formed steps with newlines and splitting again gives the
      steps back. */
  lemma {:induction false} SplitJoinRoundTrip(steps: seq<string>)
    requires WellFormedSteps(steps)
    ensures SplitSteps(JoinLines(steps)) == steps
  {
    if |steps| == 1 {
      SplitNoNewlinePrefix(steps[0], "", "");
      assert steps[0] + "" == steps[0];
      assert "" + steps[0] == steps[0];
      assert steps == [steps[0]];
    } else if |steps| > 1 {
      var rest := JoinLines(steps[1..]);
      SplitNoNewlinePrefix(steps[0], "\n" + rest, "");
      assert steps[0] + "\n" + rest == steps[0] + ("\n" + rest);
      assert "" + steps[0] == steps[0];
      assert ("\n" + rest)[0] == '\n';
      assert ("\n" + rest)[1..] == rest;
      assert SplitFrom("\n" + rest, steps[0]) == [steps[0]] + SplitFrom(rest, "");
      SplitJoinRoundTrip(steps[1..]);
      assert steps == [steps[0]] + steps[1..];
    }
  }
}
